=== FILE: README.md ===
# Access control and input handling of async_blog (aiohttp)

This project models, in Dafny, the request-handling core of the aiohttp blog
`async_blog`: who may reach a view, how a user registers, logs in and out,
how the owner of a post, note or note rubric is checked before it is changed,
how request parameters and forms are validated, how errors become responses
or redirects, how list pages are paged, and the guard logic of the store that
all of this reads and writes.

Python's exceptions are values: an operation that may raise returns
`Result<T>` (`Ok(value)` or `Err(exception)`), and an `except` clause is a
test with `Exceptions.IsInstance`, so catching a base class also catches its
subclasses. A view handler is represented by its outcome. A gate that decides
without the handler therefore gives a result that does not depend on it.
Objects whose fields the source changes are classes:
- `Store.Database` holds the five tables as maps, with AUTO_INCREMENT counters.
- `Sessions.Session` holds the `user` and `message` keys.
- `ParamsHandling.ParamsHandler` and `UrlParamsHandling.UrlParamsHandler` are the two parameter walkers. Each has its loop as a method, proved against a function that specifies it.

Modules, one per source file (the shared modules come first):
- `Exceptions`: the exception classes and `isinstance`.
- `PyConvert`: `int()` and `str()` on request strings.
- `Store`: `core/database/db.py`.
- `Sessions`: the aiohttp session.
- `Security`: the password hasher, as two opaque functions.
- `UserGroups`: `core/views/auth/user_groups.py`.
- `Authorization`: `core/views/auth/authorization.py`.
- `Redirects` and `Helpers`: `core/views/helpers.py`.
- `AuthSession`: `core/views/auth/session.py`.
- `AuthenticationPolicy`: `core/views/auth/authentication_policy.py`.
- `LoginRequired`: `core/views/session.py`.
- `LegacyAuth`: `core/views/auth.py`.
- `ParamsHandling`: `core/views/validators.py`.
- `UrlParamsHandling`: `core/utils.py`.
- `ModelValidators`: `core/database/validators.py`.
- `Middlewares`: `core/middlewares.py`.
- `CustomErrors`: `core/views/custom_errors.py`.
- `ViewUtils`: `core/views/utils.py`.
- `Pagination`: `core/views/pagination.py`.

`helpers.py` and `auth/session.py` import each other, so the redirect builders sit in their own module, `Redirects`.

## Model

| member | source | states |
|---|---|---|
| UserGroups.SubclassIsRankOrder | core/views/auth/user_groups.py:44-53 | Among the logged-in groups, a held group satisfies a required one iff its privilege rank is at least the required rank (User < Moderator < Admin). |
| UserGroups.VisitorIsolated | core/views/auth/user_groups.py:36-45 | Visitor satisfies only Visitor, and only Visitor satisfies Visitor. |
| UserGroups.AdminSatisfiesAll | core/views/auth/user_groups.py:44-53 | Every group satisfies itself, and Admin satisfies every logged-in group. |
| UserGroups.SubclassTransitive | core/views/auth/user_groups.py:44-53 | The subclass relation is transitive. |
| UserGroups.SubclassAntisymmetric | core/views/auth/user_groups.py:44-53 | Two groups that satisfy each other are the same group. |
| UserGroups.GroupIdsIncrease | core/views/auth/user_groups.py:57-60 | Group ids are distinct, Visitor's is the smallest, and among logged-in groups the ids increase with privilege. |
| UserGroups.MappingIsBijection | core/views/auth/user_groups.py:62-67 | `user_groups_mapping` has the keys 1-4 and is the inverse of the group ids. |
| Authorization.GetUserGroup | core/views/auth/authorization.py:47-64 | Admin whenever `is_admin` is set; Moderator iff only `is_moderator` is set; User iff neither is set; never Visitor. |
| Authorization.GetUserGroupRespectsFlags | core/views/auth/authorization.py:47-64 | The group given descends from User. It descends from Moderator iff either flag is set, and from Admin iff `is_admin` is set. |
| Authorization.SessionUserOf | core/views/auth/authorization.py:152-161 | The session user is the row without its password, with `group` added from the flags. |
| Authorization.CheckLoginForAvailability | core/views/auth/authorization.py:67-87 | `Ok(true)` iff no stored login equals the given one under the column's collation (case of ASCII letters and trailing spaces ignored). `Ok(false)` iff one does. An empty login is refused by `fetch_one_user` with TypeError. The older module's `check_login_for_availability` (core/views/auth.py:44-53) is the same code and is modelled by this member. |
| Authorization.RegisterUser | core/views/auth/authorization.py:90-114 | A free login inserts exactly one user row, with that login and the password hashed. A login the collation equates with a stored one is busy: it raises RegistrationError("Login is busy. Choose another, please!") and the store is unchanged. Logins unique under the collation stay unique. This is the intended half of a Findings row. |
| Authorization.RegisterUserAsWritten | core/views/auth/authorization.py:105-114 | As written, a free login raises TypeError("insert_user() missing 1 required positional argument: 'password'") and a busy one RegistrationError, so registration never succeeds. |
| Authorization.RegistrationFailsAsWritten | core/views/auth/authorization.py:105-111 | On an empty store a login is free, yet registration as written raises TypeError. |
| Authorization.CollatedLoginIsBusy | core/views/auth/authorization.py:82-87 | A login the collation equates with a stored one ("ALICE" for "alice") is reported busy. |
| Authorization.AuthorizeUser | core/views/auth/authorization.py:117-161 | The user is looked up under the login column's collation. An unknown login or a wrong password raises AuthorizationError with its message, and the session is untouched. On success the session is a fresh one whose user is the record without password, and the group the gates read is the user's. |
| Authorization.LogoutUser | core/views/auth/authorization.py:164-176 | Every key of the session is dropped, so the gates read no group. |
| Authorization.RegisteredUserAuthorizes | core/views/auth/authorization.py:136-150 | With a sound hasher and logins unique under the collation, a stored user is found by any spelling of its login the collation equates with it, and their own password verifies. |
| Sessions.Session.UserGroup | core/views/auth/session.py:86-87 | `session.get('user', {}).get('group')`: the logged-in user's group, or None. Log-in and log-out set it, and `LoginRequired.LoggedInSessionAtGate` shows what the gate does with it. |
| AuthSession.GroupAccess | core/views/auth/session.py:86-101 | A gate at a logged-in group raises 401 with no group in the session. It returns the handler's outcome unchanged iff the session group descends from the required group. Otherwise it raises 403. The Visitor gate redirects logged-in users to `index` and serves visitors (intended behaviour, see Findings). |
| AuthSession.GroupAccessAsWritten | core/views/auth/session.py:89-91 | The gate as written; it agrees with `GroupAccess` on every gate except Visitor. |
| AuthSession.VisitorGateAsWrittenNeverServes | core/views/auth/session.py:89-91 | As written, the Visitor gate redirects every client, even one that is not logged in; the intended gate serves that client. |
| AuthSession.GateDecidesWithoutHandler | core/views/auth/session.py:89-101 | When the gate does not admit, its result is the same for every handler. |
| AuthSession.AdmitsIsRankOrder | core/views/auth/session.py:96-101 | A gate at a logged-in group admits exactly the groups of at least its rank. |
| AuthSession.GateMonotone | core/views/auth/session.py:96 | A gate that admits a group admits every group descending from it. |
| AuthSession.TakeAlert | core/views/auth/session.py:124-130 | Reading the slot gives the stored message, or '' when there is none, and leaves the slot empty. |
| AuthSession.AlertReadOnce | core/views/auth/session.py:126-130 | A read after a put returns the message put; a second read returns ''. |
| AuthSession.GetAlertMessageFromSession | core/views/auth/session.py:106-130 | Pops `message`, returning '' when absent; the new slot and the result are those of `TakeAlert`. |
| AuthSession.PutAlertMessageInSession | core/views/auth/session.py:133-156 | Overwrites the slot with the message given. |
| AuthenticationPolicy.AuthenticateOwner | core/views/auth/authentication_policy.py:42-52 | The fetch's error propagates. With nobody logged in the result is KeyError('user'). The result is `(session user id, record)` iff the record's `user_id` is the session user's id, else AuthenticationError. |
| AuthenticationPolicy.AuthenticatePostOwner | core/views/auth/authentication_policy.py:27-52 | For posts: RecordNotFoundError when the post is absent or its rubric is NULL or missing (the join of `fetch_one_post`), then the owner check against the stored row; reads only. |
| AuthenticationPolicy.AuthenticateNoteRubricOwner | core/views/auth/authentication_policy.py:55-80 | The same contract for note rubrics. |
| AuthenticationPolicy.AuthenticateNoteOwner | core/views/auth/authentication_policy.py:83-108 | The same contract for notes, with RecordNotFoundError when the note is absent or not filed under an existing rubric (the intended join, see Findings). |
| AuthenticationPolicy.OwnerIsUnique | core/views/auth/authentication_policy.py:46-52 | Two sessions that both pass the owner check for a post belong to the same user id. |
| LoginRequired.LoginRequired | core/views/session.py:65-92 | 401 with nobody logged in, whatever the grant. 'user' admits everyone logged in. 'moderator' admits iff `is_moderator or is_admin`, 'admin' iff `is_admin`, else 403. An unknown string raises ValueError and a non-string raises TypeError. On admission the handler's outcome is unchanged. |
| LoginRequired.GrantContainment | core/views/session.py:69-77 | Admitted at 'admin' implies admitted at 'moderator', which implies admitted at 'user'. |
| LoginRequired.RefusalIgnoresHandler | core/views/session.py:67-90 | When the gate refuses, its result is the same for every handler. |
| LoginRequired.GatesAgree | core/views/session.py:69-77 | For a session that log-in created, the grant string and the group it names admit the same users. |
| LoginRequired.LoggedInSessionAtGate | core/views/auth/session.py:86-101 | For a session created by log-in, a gate above Visitor serves the handler iff the user's group ranks at least the required one, else raises 403; the Visitor gate redirects to the index. |
| LoginRequired.LoggedOutSessionAtGate | core/views/auth/session.py:86-101 | After log-out the Visitor gate serves the page and every other gate raises 401. |
| LegacyAuth.WithoutPassword | core/views/auth.py:82-84 | The record returned keeps every field but the password. |
| LegacyAuth.AuthorizeUser | core/views/auth.py:56-84 | The user is looked up under the login column's collation. An unknown login or a non-matching password raises the module's AuthorizationError. Otherwise the result is the user record without password. |
| LegacyAuth.RegisteredUserAuthorizesLegacy | core/views/auth.py:56-84 | A registered user logs in through the older module under any spelling of its login the collation equates with it, and gets back their own record. |
| LegacyAuth.AuthenticateUser | core/views/auth.py:87-100 | Raises the module's AuthenticationError iff the id differs from the session user's id. |
| LegacyAuth.OwnerChecksAgree | core/views/auth.py:95-100 | The old and new owner checks accept the same owner; the old check's exception is not the class the middleware translates. |
| ParamsHandling.TargetName | core/views/validators.py:160-163 | The key is `new_name` when it is truthy, else `name`. |
| ParamsHandling.StrictAvailability | core/views/validators.py:97-121 | GET gives False and POST gives True. Any other string raises ValueError and a non-string raises TypeError. |
| ParamsHandling.ConvertParamType | core/views/validators.py:167-178 | `type_(param)`: succeeds iff `int()` or `str()` accepts the text (for `int`: whitespace including the separators 28-31, a sign, digits with single underscores between them), with a value of that type; otherwise InvalidParamValueError. |
| ParamsHandling.ParamsHandler.HandleParams | core/views/validators.py:128-164 | The loop returns exactly `Handled`, the declared parameters folded in order. |
| ParamsHandling.ErrorEndsLoop | core/views/validators.py:146-156 | An error raised at some parameter is the result of the whole call: fail-fast. |
| ParamsHandling.GetNeverRaises | core/views/validators.py:145-159 | In GET mode nothing raises; missing or malformed values are dropped. |
| ParamsHandling.HandledKeysAndValues | core/views/validators.py:143-164 | Every key of the result is the target name of a declared parameter that is present and converts, and its value is `type_(raw)`. |
| ParamsHandling.AcceptableIsKept | core/views/validators.py:151-163 | A parameter that is present and converts always reaches the result. |
| ParamsHandling.PostIff | core/views/validators.py:145-156 | POST succeeds iff every declared parameter is present and converts; otherwise it raises InvalidFormError with one of the two messages. |
| ParamsHandling.CompleteInputIgnoresMode | core/views/validators.py:145-159 | With complete, well-typed input every mode, even an invalid one, returns what GET returns: the mode is consulted only on a bad parameter. |
| ParamsHandling.UrlParamsKeys | core/views/validators.py:181-186 | The validated list-page parameters only use the keys rubric_id, page_number, rows_quantity and search_word. |
| UrlParamsHandling.ConvertParamType | core/utils.py:75-86 | `type_(param)`: succeeds iff `int()` or `str()` accepts the text, with a value of that type; otherwise InvalidParameterTypeError. |
| UrlParamsHandling.UrlParamsHandler.HandleUrlParams | core/utils.py:45-72 | The loop returns exactly `UrlHandled`, the declared parameters folded in order. |
| UrlParamsHandling.UrlHandledIsGetMode | core/utils.py:55-72 | The URL handler is the form validator in GET mode: same keys and same values, and it never raises. |
| UrlParamsHandling.UrlHandledKeysAndValues | core/utils.py:55-72 | Every key is the target name of a declared parameter that is present, with its converted value. |
| UrlParamsHandling.UrlHandledKeepsAcceptable | core/utils.py:57-71 | A declared parameter that is present and converts is always kept. |
| PyConvert.ParseIntToString | core/views/validators.py:174 | `int(str(i)) == i` for every integer (the interpreter's digit limit is under Left out). |
| PyConvert.ConvertStrRoundTrip | core/views/helpers.py:137 | `type(v)(str(v)) == v` for the parameter types. |
| PyConvert.ParseIntAlphabet | core/views/validators.py:174 | A string `int()` accepts holds only whitespace, a sign, digits and underscores; "1.5" is refused, not truncated. |
| PyConvert.ParseIntUnderscore | core/utils.py:82 | `int("1_0") == 10`: an underscore between two digits is accepted and dropped. |
| PyConvert.ParseIntMisplacedUnderscores | core/utils.py:82-84 | A doubled, leading or trailing underscore makes `int()` raise ValueError. |
| PyConvert.ParseIntSpaceAfterSign | core/utils.py:82-84 | Whitespace between the sign and the digits makes `int()` raise ValueError. |
| PyConvert.ParseIntSeparators | core/views/validators.py:174 | The ASCII separators 28-31 are whitespace that `int()` strips: `int("\x1c5") == 5`. |
| ModelValidators.ConvertEmptyValue | core/database/validators.py:72-87 | None for falsy values, the integer -1 and the string 'None'; every other value unchanged. |
| ModelValidators.ConvertEmptyValueIdempotent | core/database/validators.py:84-87 | Converting twice is converting once. The string '-1' is kept; 0 and False become None. |
| ModelValidators.CheckFields | core/database/validators.py:93-183 | No errors iff every field is within its bounds. |
| ModelValidators.CheckFieldsReportsOnlyViolations | core/database/validators.py:93-183 | Every reported error names a field whose bound is violated. |
| ModelValidators.CheckFieldsReportsEveryViolation | core/database/validators.py:93-183 | Every violated bound is reported. |
| ModelValidators.Validate | core/database/validators.py:93-183 | The model is built iff every bound holds; otherwise ValidationError with at least one error. |
| ModelValidators.ValidateUser | core/database/validators.py:93-107 | Login and password of length 5..255 inclusive. |
| ModelValidators.ValidateUserSetting | core/database/validators.py:110-120 | A new login or password of length 5..255, reported under its own field name. |
| ModelValidators.ValidateRubricTitle | core/database/validators.py:135-141 | Rubric titles of length 3..255. |
| ModelValidators.ValidatePost | core/database/validators.py:144-160 | Title 5..255 and content at least 5; the rubric id through `convert_empty_value`. |
| ModelValidators.ValidateNote | core/database/validators.py:172-186 | Content at least 3; the rubric id through `convert_empty_value`. |
| ModelValidators.SplitExt | core/database/validators.py:127 | Root and extension concatenate to the name. The extension is empty or a dot followed by no dot or slash. |
| ModelValidators.IsFileWithImageExtension | core/database/validators.py:122-132 | The name is accepted iff its extension is one of .png, .jpeg, .jpg; otherwise ValueError with the "unsupported extension" message. |
| ModelValidators.ImageExtensionExamples | core/database/validators.py:126-132 | An accepted name ends in one of the three extensions. The check is case-sensitive ("photo.PNG" is refused), and a dot-file such as ".png" has no extension. |
| ModelValidators.PadRight | core/database/validators.py:216 | `:<10`: the name is kept and right-padded with spaces to ten characters. |
| ModelValidators.SplitJoin | core/database/validators.py:215-217 | Splitting joined lines at newlines gives the lines back. |
| ModelValidators.FormattedMessageLines | core/database/validators.py:204-219 | The formatted message has one line per error, in order, each the padded field name, ' - ' and the message. |
| Middlewares.ErrorMiddleware | core/middlewares.py:64-92 | A response passes through. RecordNotFoundError gives the 404 override or raises 404. AuthenticationError raises a bare 403. An HTTP error gets its status's override, or is re-raised. Anything else propagates. |
| Middlewares.MiddlewareTranslates | core/middlewares.py:64-92 | No RecordNotFoundError or AuthenticationError escapes; new errors are only 404 and 403; a response is the handler's or an override's. |
| Middlewares.ErrorPagesServed | core/middlewares.py:68-87 | With the application's error pages: a listed status gets its page, whose status matches. A missing record gets the 404 page. A failed owner check is a bare 403 that bypasses the page. A 400 is re-raised. |
| CustomErrors.ErrorsTable | core/views/custom_errors.py:26-92 | The keys are exactly 401, 403, 404, 405 and 500, with no 400. Each page spells out its key in its three digits and renders with that status. |
| Redirects.RedirectByUrl | core/views/helpers.py:100-116 | 303 when `is_safe`, 302 otherwise, to the URL given. |
| Redirects.RedirectByRouteName | core/views/helpers.py:119-142 | The same status choice; every keyword argument is passed to the route as its string. |
| Redirects.RedirectStatusAgrees | core/views/helpers.py:114-140 | The two builders choose the same status for the same `is_safe`. |
| Redirects.RouteParamsRoundTrip | core/views/helpers.py:137 | The string parameters of a route redirect convert back to the values they were made from. |
| AuthSession.IndexRedirect | core/views/auth/session.py:91 | A 302 to the route `index` with no parameters. |
| Helpers.RedirectBack | core/views/helpers.py:145-189 | A truthy URL wins over a truthy route name, and both give 302. With neither it raises TypeError and writes nothing. Otherwise the alert is written (the formatted errors of a ValidationError, else `str(error)`) and then the redirect is returned. |
| Helpers.ValidationAlertLines | core/views/helpers.py:182-183 | The alert of a ValidationError has one line per field error, in order. |
| Helpers.GetIdParamFromUrl | core/views/helpers.py:192-206 | `int(match_info['id'])`: KeyError when absent, ValueError when not an integer. |
| Helpers.GetIdParamFromFormData | core/views/helpers.py:209-228 | HTTPBadRequest("the form data do not have expected params") when `id` is absent, else `int(data['id'])`. |
| Helpers.IdParamRoundTrip | core/views/helpers.py:204-228 | An id written in decimal is read back by both parsers, and the two agree when the id is present. |
| Helpers.MissingFormIdIsReRaised | core/views/helpers.py:225-226 | A form without an id reaches the client as the bare 400, because the error pages have no 400 entry. |
| ViewUtils.ViewDecorator | core/views/utils.py:42-75 | A Request is passed through as the request, and a View contributes `view.request`. Any other argument raises ValueError without calling the inner function. |
| ViewUtils.ViewDecoratorFindsRequest | core/views/utils.py:57-66 | A function view and a class-based view over one request get the same result. For any other argument the inner function is never consulted. |
| ViewUtils.HandleLocalError | core/views/utils.py:108-123 | Success passes through. A caught kind is re-raised as `raise_error`; any other kind propagates unchanged. |
| ViewUtils.HandleLocalErrorProperties | core/views/utils.py:118-123 | The wrapper fails exactly when the function fails, and wrapping twice is wrapping once. |
| ViewUtils.LocalErrorReachesErrorPage | core/views/utils.py:120-121 | A caught error re-raised as an HTTP error with an error page is served that page by the middleware. |
| Pagination.CeilDiv | core/views/pagination.py:45 | `math.ceil(a / b)`: the least integer not below the quotient, for either sign of `b`. |
| Pagination.CountPagesQuantity | core/views/pagination.py:42-46 | The store's error for an unknown entity, ZeroDivisionError for zero rows a page, else the ceiling of rows over rows a page. |
| Pagination.Links | core/views/pagination.py:53-61 | `page_number` is echoed. `first_page` is shown iff page > 2, with its separator iff page > 3. `previous` iff page > 1, `next` iff page < pages, `last` iff pages - page > 1, with its separator iff pages - page > 2. |
| Pagination.PaginationOf | core/views/pagination.py:48-63 | The links around the page, once the page count is known. |
| Pagination.LinksAreOrdered | core/views/pagination.py:53-61 | Separators only appear next to their end link. On a page within range the links are distinct pages within range, in increasing order. |
| Pagination.NextLinkIffNextPageHasRows | core/views/pagination.py:58 | The next-page link is shown exactly when the store's next page has rows. |
| Pagination.LastCountedPageHasRows | core/views/pagination.py:44-46 | With rows at all, the last counted page has rows and the one after it has none. |
| Pagination.PostListingNextLink | core/views/pagination.py:42-58 | With every post filed under an existing rubric, the next-page link of the post pages is shown iff `fetch_all_posts` returns rows for the next page. |
| Pagination.PostPageCountCoversListing | core/views/pagination.py:42-58 | `fetch_rows_quantity` counts every post, joined or not, so whenever the next page of any filtered post listing has rows the next-page link is shown. The converse fails when filters or the join drop posts. |
| Pagination.NotePageCountCoversListing | core/views/pagination.py:42-58 | The notes are counted over all users, so the next-page link is shown whenever the next page of one user's note listing has rows. |
| Store.Database.FetchRowsQuantity | core/database/db.py:153-197 | Counts posts for 'posts' and notes for 'notes'. Another string raises ValueError and a non-string raises TypeError. |
| Store.Limit | core/database/db.py:241-247 | `LIMIT offset, count` returns rows offset.. of the query, at most `count` of them; a negative value is an SQL error. |
| Store.PagesArePrefix | core/database/db.py:246-247 | The pages at offset (page - 1) * quantity, taken in order, are the rows in order, with none lost or repeated. |
| Store.PageEmptyIff | core/database/db.py:372-373 | A page is empty exactly when its offset is past the last row. |
| Store.Database.SelectedPosts | core/database/db.py:220-240 | The rows the query keeps before LIMIT: a post is listed iff it is stored, its rubric exists (the INNER JOIN) and it meets every truthy filter; no more rows than the table holds. |
| Store.Database.FetchAllPosts | core/database/db.py:214-258 | Exactly the page at offset `(page_number - 1) * rows_quantity` of the selected posts, at most `rows_quantity` rows; an SQL error for a negative offset or count. |
| Store.Database.UnfilteredListingHoldsEveryPost | core/database/db.py:153-258 | With no truthy filter and every post filed under an existing rubric, the listing holds as many posts as `fetch_rows_quantity` counts. |
| Store.Database.SelectedNotes | core/database/db.py:350-365 | The rows the note query keeps before LIMIT: a note is listed iff it is stored, it joins a note rubric (as written or as intended) and it is the user's and meets every truthy filter. |
| Store.Database.FetchAllNotesAsWritten | core/database/db.py:343-383 | As written, every listed note has a note rubric with its own id. |
| Store.Database.FetchAllNotes | core/database/db.py:343-383 | With the intended join: exactly the page at offset `(page_number - 1) * notes_quantity` of the user's selected notes, each filed under an existing rubric. |
| Store.Database.FetchOnePost | core/database/db.py:261-291 | The stored post iff it exists and its rubric exists; otherwise RecordNotFoundError. |
| Store.Database.FetchOneRandomPost | core/database/db.py:294-321 | None iff no post is filed under an existing rubric, else such a stored post. |
| Store.Database.FetchOneNoteAsWritten | core/database/db.py:386-419 | As written: found iff the note exists and a note rubric has the note's own id. |
| Store.Database.FetchOneNote | core/database/db.py:386-419 | With the intended join: the stored note iff it exists and its rubric exists; otherwise RecordNotFoundError. |
| Store.Database.NoteJoinAsWrittenLosesFiledNote | core/database/db.py:397-398 | A note filed under an existing rubric, with no note rubric of its own id, is not found or listed as written, and is found and listed as intended. |
| Store.Database.NoteJoinAsWrittenFindsUnfiledNote | core/database/db.py:397-398 | A note without a rubric is found as written whenever a note rubric has its id, and is not found as intended. |
| Store.Database.FetchOneNoteRubric | core/views/auth/authentication_policy.py:71-75 | The stored note rubric, or RecordNotFoundError. |
| Store.CollationKey | core/database/models.py:31 | The key a login compares by: ASCII letters folded to lower case, trailing spaces dropped, nothing else changed. |
| Store.SameCollatedIff | core/database/models.py:31 | Two logins (or passwords) compare equal iff, without their trailing spaces, they have the same length and agree letter by letter up to case. |
| Store.KeyOfFoldedTrimmed | core/database/models.py:31 | A login with no upper-case ASCII letter and no trailing space is its own key. |
| Store.SameCollatedExample | core/database/db.py:448-449 | "ALICE " and "alice" compare equal; "alice" and "alicia" do not. |
| Store.Database.FetchOneUser | core/database/db.py:422-482 | TypeError iff no filter is truthy. Otherwise a stored user meeting every truthy filter, with the login and the password compared under the columns' collation, or RecordNotFoundError iff none does. |
| Store.Database.ExecuteQueryAsWritten | core/database/db.py:139-145 | As written, `execute_query` changes no table: the statement is never awaited. The as-written half of a Findings row. |
| Store.Database.InsertPostAsWritten | core/database/db.py:498-514 | As written, `insert_post` passes its statement to the as-written `execute_query` and changes no table. |
| Store.InsertedPostIsLostAsWritten | core/database/db.py:139-145 | On an empty store, the as-written `execute_query` leaves the post count at 0, and the intended insert makes it 1. |
| Store.Database.InsertUser | core/database/db.py:555-575 | Adds one row under the next id, with no flags set. |
| Store.Database.InsertPostRubric | core/database/db.py:485-495 | Adds one row under the next id. |
| Store.Database.InsertPost | core/database/db.py:498-517 | Adds one row under the next id. |
| Store.Database.InsertNoteRubric | core/database/db.py:519-530 | Adds one row under the next id. |
| Store.Database.InsertNote | core/database/db.py:533-552 | Adds one row under the next id. |
| Store.Database.UpdatePostRubric | core/database/db.py:578-595 | Changes the title of the row with that id, if any. |
| Store.Database.UpdatePost | core/database/db.py:598-622 | Changes title, content and rubric of the row with that id, if any. |
| Store.Database.UpdateNoteRubric | core/database/db.py:625-642 | Changes the title of the row with that id, if any. |
| Store.Database.UpdateNote | core/database/db.py:645-667 | Changes content and rubric of the row with that id, if any. |
| Store.Database.UpdateUser | core/database/db.py:670-695 | Changes login and password of the row with that id, if any. |
| Store.Database.SetModerator | core/database/db.py:792-827 | Sets or clears `is_moderator` of the row with that id, if any. |
| Store.Database.DeletePostRubric | core/database/db.py:698-712 | Removes the row with that id. |
| Store.Database.DeletePost | core/database/db.py:715-732 | Removes the row with that id. |
| Store.Database.DeleteNoteRubric | core/database/db.py:735-749 | Removes the row with that id. |
| Store.Database.DeleteNote | core/database/db.py:752-769 | Removes the row with that id. |
| Store.Database.DeleteUser | core/database/db.py:772-789 | Removes the row with that id. |

## Left out

- SQL text, cursors and the connection pool are not modelled. The store is a set of in-memory maps, and a query without ORDER BY reads rows in ascending key. The INNER JOINs are modelled as the condition they put on a row; the `rubric` title they add to each returned row is not.
- Foreign-key cascades and SET NULL are not modelled, because the database server enforces them.
- The store's writes model the statements' intended effect. As written, none of them changes the database: see the Findings row on `execute_query`. Two of their statements would also fail if they were executed; the model does not capture these failures:
  - `insert_post` names a placeholder it does not supply;
  - `insert_user` never supplies `is_admin`.
- Store.Database.FetchOneUser: utf8_general_ci also ignores accents and folds other non-ASCII letters ("é" equals "E"), in the login and in the password filter; the model folds ASCII letters only.
- Authorization.CheckLoginForAvailability: accents and non-ASCII case are compared exactly, not as utf8_general_ci compares them; see `Store.Database.FetchOneUser`.
- Authorization.RegisterUser: accents and non-ASCII case are compared exactly in the busy test, as for `Authorization.CheckLoginForAvailability`.
- Authorization.AuthorizeUser: accents and non-ASCII case are compared exactly in the lookup, as for `Store.Database.FetchOneUser`.
- LegacyAuth.AuthorizeUser: accents and non-ASCII case are compared exactly in the lookup, as for `Store.Database.FetchOneUser`.
- Authorization.RegisteredUserAuthorizes: logins equal only through accents or non-ASCII case are not covered by the collation model.
- LegacyAuth.RegisteredUserAuthorizesLegacy: logins equal only through accents or non-ASCII case are not covered by the collation model.
- `insert_note` accepts a title that the notes table does not hold, and the model drops it.
- The full-text `MATCH ... AGAINST` test is a parameter of the two list queries.
- `fetch_one_random_post` chooses its row through a parameter; randomness is not modelled.
- `fetch_one_note_rubric` is missing from `db.py` but called by the owner check. It is modelled as a lookup by key.
- bcrypt and Fernet are not modelled. `hash` and `verify` are two function values. `Security.PasswordHasher.Sound` stands for "a password verifies against its own hash", and the lemmas that need it take it as a requirement.
- `security.verify_password` is missing from `core/security.py` as shipped, so `authorize_user` (core/views/auth/authorization.py:143) raises AttributeError for every stored login, and no log-in can succeed as shipped. The model checks passwords through the opaque `verify` instead, which stands for the intended function.
- `core/hashing.py` is not part of this model.
- `ParamsHandler` reads a one-shot generator, so a second `validated_params` call would see no parameters. The model covers a single call.
- PyConvert.ParseInt: `int()` also accepts non-ASCII decimal digits and Unicode whitespace; the model accepts ASCII only. CPython 3.9.14, 3.10.7 and every later release refuse to convert more than 4300 decimal digits (`sys.int_info.default_max_str_digits`); earlier 3.9 and 3.10 releases do not. The model has no digit limit, because the interpreter version is not fixed.
- PyConvert.NatToString: `str()` of an integer of more than 4300 digits raises ValueError on the interpreters with the digit limit; the model always converts.
- PyConvert.ParseIntToString: the round trip holds on those interpreters only for integers of at most 4300 digits.
- PyConvert.ConvertStrRoundTrip: the same 4300-digit bound applies to the integer case.
- Redirects.RouteParamsRoundTrip: the same 4300-digit bound applies to integer route parameters.
- Helpers.IdParamRoundTrip: the same 4300-digit bound applies to ids.
- ParamsHandling.ConvertParamType: a value written with non-ASCII digits or Unicode whitespace, which `int()` accepts, is refused, because the model's `int()` is ASCII only. A value of more than 4300 digits converts, where the interpreters with the digit limit raise InvalidParamValueError.
- UrlParamsHandling.ConvertParamType: a value written with non-ASCII digits or Unicode whitespace, which `int()` accepts, is refused, because the model's `int()` is ASCII only. A value of more than 4300 digits converts, where the interpreters with the digit limit raise InvalidParameterTypeError.
- Helpers.GetIdParamFromFormData: an id written with non-ASCII digits or Unicode whitespace, which `int()` accepts, is refused, because the model's `int()` is ASCII only. An id of more than 4300 digits converts, where the interpreters with the digit limit raise ValueError.
- Helpers.GetIdParamFromUrl: an id of more than 4300 digits converts, where the interpreters with the digit limit raise ValueError.
- Authorization.SessionUserOf: the session holds the group itself, as `authorization.py:160-161` does. `user_groups.py:56` notes that a class cannot be serialised to JSON, so the encrypted cookie storage would fail to save it. Serialisation is not modelled.
- Pydantic's own coercion is not modelled: its string-to-int conversion, its error ordering and its other messages. The model checks only the declared length bounds and the validators.
- `ModelValidators.ValidatePost`: the converted `rubric_id` is not coerced to `int`.
- `ModelValidators.ValidateNote`: the converted `rubric_id` is not coerced to `int`.
- `ModelValidators.IsFileWithImageExtension`: the list of extensions in the message follows the iteration order of a Python set, which is not fixed; the model uses one fixed order.
- `Helpers.GetIdParamFromUrl`: the ValueError message quotes the raw value without Python's `repr` escaping.
- `Helpers.GetIdParamFromFormData`: the ValueError message quotes the raw value without Python's `repr` escaping.
- `Helpers.RedirectBack`: an `is_safe` flag passed through `**kwargs` to the route builder is not modelled; route keyword arguments are integers and strings.
- Route resolution (`router[name].url_for`) and template rendering are not modelled. A redirect carries the route name and its string parameters, and an error page carries its template data.
- `raise ... from` chaining (`__cause__`) is not modelled.
- `Pagination.CeilDiv` is exact integer ceiling; the floating-point rounding of `math.ceil(a / b)` for very large counts is not modelled.
- The log middleware, the encrypted-cookie session middleware and `setup_middlewares` are not modelled.
- `put_additional_data_in_view_result` is not modelled, nor are the view handlers in `core/views/views.py`.
- Asynchronous scheduling is not modelled; each `await` is one sequential step.

## Findings

| source | as written | input that shows it | evidently intended | confidence | as-written member | corrected member |
|---|---|---|---|---|---|---|
| core/views/auth/session.py:89-91 | Inside the Visitor branch the test is `user_group is not None`. That tests the required group, which is Visitor and never None, so the gate always redirects to `index`. | A client with no session user requests a page gated at Visitor. It is redirected to `index` and the page is never served. | Test the session's group (`session_user_group is not None`) to redirect logged-in users, and then `return await handler(...)` in that branch, which has no handler call as written, so that visitors are served. | not executed | AuthSession.GroupAccessAsWritten (with AuthSession.VisitorGateAsWrittenNeverServes) | AuthSession.GroupAccess |
| core/database/db.py:356-357, 397-398 | `fetch_all_notes` and `fetch_one_note` join `notes` to `note_rubrics` on `notes.id = note_rubrics.id`: the note's own id, not its rubric. | Note 7 is filed under note rubric 1 and no note rubric 7 exists. `fetch_one_note(7)` raises RecordNotFoundError, so its owner cannot open or change it, and the listing leaves it out. | Join on the note's rubric, `notes.note_rubric_id = note_rubrics.id`, as the post queries do. | not executed | Store.Database.FetchOneNoteAsWritten (with Store.Database.NoteJoinAsWrittenLosesFiledNote and Store.Database.NoteJoinAsWrittenFindsUnfiledNote) | Store.Database.FetchOneNote |
| core/database/db.py:139-145 | `execute_query` calls `cursor.execute(query, params)` without `await`. The coroutine never runs, so no insert, update or delete statement reaches the server. | Any post created through `insert_post`: `fetch_rows_quantity('posts')` still counts 0 afterwards. | `await cursor.execute(query, params)`, so each write takes effect. | not executed | Store.Database.ExecuteQueryAsWritten (with Store.Database.InsertPostAsWritten and Store.InsertedPostIsLostAsWritten) | Store.Database.InsertPost (and every other insert, update and delete of Store.Database) |
| core/views/auth/authorization.py:111 | `register_user` calls `db.insert_user(connection, user_with_hashed_password)`: one positional argument, where `insert_user` requires `login` and `password`. | Registering "alice" on an empty store: the login is free, and the call raises TypeError("insert_user() missing 1 required positional argument: 'password'"). | `insert_user(connection, login=..., password=hashed_password)`. | not executed | Authorization.RegisterUserAsWritten (with Authorization.RegistrationFailsAsWritten) | Authorization.RegisterUser |

=== FILE: auth_session.dfy ===
/** The group gate `user_group_access_required` and the alert-message slot
    of core/views/auth/session.py.  A handler is represented by its outcome:
    the gate either returns that outcome unchanged or decides without it, in
    which case its result does not depend on the handler at all. */
module AuthSession {
  import opened Exceptions
  import opened UserGroups
  import opened Sessions
  import opened Redirects

  /** The redirect a gate at Visitor sends a logged-in user away with. */
  function IndexRedirect(): (r: Redirect)
    ensures r.status == FoundStatus && r.location == Route("index", map[])
  {
    RedirectByRouteName("index", false, map[])
  }

  /** The handler's outcome, passed through as the gate's own. */
  function Run<R>(handler: Result<R>): (r: Result<Reply<R>>)
    ensures handler.Ok? <==> r.Ok?
    ensures handler.Ok? ==> r.value == Body(handler.value)
    ensures handler.Err? ==> r.error == handler.error
  {
    match handler
    case Ok(v) => Ok(Body(v))
    case Err(e) => Err(e)
  }

  /** Whether the gate at `required` runs the handler for a session whose
      `user.group` is `sessionGroup`. */
  predicate Admits(required: Group, sessionGroup: Option<Group>)
  {
    if required == Visitor then sessionGroup.None?
    else sessionGroup.Some? && IsSubclass(sessionGroup.value, required)
  }

  /** `user_group_access_required` with the Visitor branch as the source
      evidently intends: a page for visitors sends a logged-in user to the
      index and serves everyone else.  Every other gate raises 401 without a
      group in the session, serves a group that descends from the required
      one and raises 403 for any other group. */
  function GroupAccess<R>(required: Group, sessionGroup: Option<Group>, handler: Result<R>): (r: Result<Reply<R>>)
    ensures Admits(required, sessionGroup) ==> r == Run(handler)
    ensures required == Visitor && sessionGroup.Some? ==> r == Ok(Redirected(IndexRedirect()))
    ensures required != Visitor && sessionGroup.None? ==> r == Err(Unauthorized)
    ensures required != Visitor && sessionGroup.Some? && !IsSubclass(sessionGroup.value, required) ==>
              r == Err(Forbidden)
  {
    if required == Visitor then
      if sessionGroup.Some? then Ok(Redirected(IndexRedirect())) else Run(handler)
    else if sessionGroup.None? then Err(Unauthorized)
    else if IsSubclass(sessionGroup.value, required) then Run(handler)
    else Err(Forbidden)
  }

  /** The gate as written: the Visitor branch tests the required group,
      which is never None there, instead of the session's group. */
  function GroupAccessAsWritten<R>(required: Group, sessionGroup: Option<Group>, handler: Result<R>): (r: Result<Reply<R>>)
    ensures required != Visitor ==> r == GroupAccess(required, sessionGroup, handler)
  {
    if required == Visitor then
      var requiredGroup: Option<Group> := Some(required);
      if requiredGroup.Some? then Ok(Redirected(IndexRedirect())) else Run(handler)
    else GroupAccess(required, sessionGroup, handler)
  }

  /** As written, a page behind the Visitor gate is never served, not even
      to a client that is not logged in, while the intended gate serves it. */
  lemma VisitorGateAsWrittenNeverServes<R>(sessionGroup: Option<Group>, handler: Result<R>, v: R)
    ensures GroupAccessAsWritten(Visitor, sessionGroup, handler) == Ok(Redirected(IndexRedirect()))
    ensures GroupAccess(Visitor, None, Ok(v)) == Ok(Body(v))
    ensures GroupAccessAsWritten(Visitor, None, Ok(v)) != GroupAccess(Visitor, None, Ok(v))
  {
  }

  /** When the gate does not admit, its outcome is the same whatever the
      handler would have done: the handler is never run. */
  lemma GateDecidesWithoutHandler<R>(required: Group, sessionGroup: Option<Group>,
                                     h1: Result<R>, h2: Result<R>)
    requires !Admits(required, sessionGroup)
    ensures GroupAccess(required, sessionGroup, h1) == GroupAccess(required, sessionGroup, h2)
    ensures GroupAccess(required, sessionGroup, h1) != Run(h1) || h1.Err?
  {
  }

  /** The gate at a logged-in group admits exactly the groups of at least
      its privilege. */
  lemma AdmitsIsRankOrder(required: Group, held: Group)
    requires required != Visitor && held != Visitor
    ensures Admits(required, Some(held)) <==> Rank(held) >= Rank(required)
  {
    SubclassIsRankOrder(held, required);
  }

  /** Monotonicity: a gate that admits a group admits every group that
      descends from it. */
  lemma GateMonotone(required: Group, held: Group, descendant: Group)
    requires required != Visitor
    requires Admits(required, Some(held)) && IsSubclass(descendant, held)
    ensures Admits(required, Some(descendant))
  {
    SubclassTransitive(descendant, held, required);
  }

  /** Reading the alert slot: the stored message, or '' when there is none;
      the slot is empty afterwards. */
  function TakeAlert(message: Option<string>): (r: (string, Option<string>))
    ensures r.1 == None
    ensures message.None? ==> r.0 == ""
    ensures message.Some? ==> r.0 == message.value
  {
    if message.Some? then (message.value, None) else ("", None)
  }

  /** A read just after a put returns the message put, and a second read
      returns ''. */
  lemma AlertReadOnce(previous: Option<string>, m: string)
    ensures TakeAlert(Some(m)).0 == m
    ensures TakeAlert(TakeAlert(previous).1).0 == ""
  {
  }

  /** `get_alert_message_from_session`: pop `message`, '' if absent. */
  method GetAlertMessageFromSession(session: Session) returns (m: string)
    modifies session`message
    ensures (m, session.message) == TakeAlert(old(session.message))
  {
    m := "";
    if session.message.Some? {
      m := session.message.value;
      session.message := None;
    }
  }

  /** `put_alert_message_in_session`: overwrite `message`. */
  method PutAlertMessageInSession(session: Session, alertMessage: string)
    modifies session`message
    ensures session.message == Some(alertMessage)
  {
    session.message := Some(alertMessage);
  }
}

=== FILE: authentication_policy.dfy ===
/** The ownership checks of core/views/auth/authentication_policy.py: fetch
    a record, read the session user's id, and compare it with the record's
    owner before the caller may change the record.  They only read the
    store and the session. */
module AuthenticationPolicy {
  import opened Exceptions
  import opened Store
  import opened Sessions

  /** The common shape: the fetch's error propagates, then `session['user']`
      raises KeyError when nobody is logged in, then the owner is compared
      with the session user's id. */
  function AuthenticateOwner<T>(fetched: Result<T>, ownerOf: T -> Option<int>, sessionUser: Option<SessionUser>)
    : (r: Result<(int, T)>)
    ensures fetched.Err? ==> r == Err(fetched.error)
    ensures fetched.Ok? && sessionUser.None? ==> r == Err(KeyErr("user"))
    ensures r.Ok? <==> fetched.Ok? && sessionUser.Some? && ownerOf(fetched.value) == Some(sessionUser.value.id)
    ensures r.Ok? ==> r.value == (sessionUser.value.id, fetched.value)
    ensures fetched.Ok? && sessionUser.Some? && ownerOf(fetched.value) != Some(sessionUser.value.id) ==>
              r == Err(Authentication)
  {
    var record :- fetched;
    if sessionUser.None? then Err(KeyErr("user"))
    else
      var sessionUserId := sessionUser.value.id;
      if ownerOf(record) != Some(sessionUserId) then Err(Authentication)
      else Ok((sessionUserId, record))
  }

  /** Whether `fetch_one_post` finds the post: it exists and its rubric is
      an existing one. */
  predicate PostReadable(db: Database, postId: int)
    reads db
  {
    postId in db.posts && Database.PostJoinsRubric(db.posts[postId], db.postRubrics)
  }

  /** Whether `fetch_one_note` finds the note, under the intended join. */
  predicate NoteReadable(db: Database, noteId: int)
    reads db
  {
    noteId in db.notes && Database.NoteJoinsRubric(db.notes[noteId], db.noteRubrics)
  }

  /** `authenticate_post_owner`.  A post whose owner was deleted has a NULL
      `user_id`, which matches nobody. */
  function AuthenticatePostOwner(db: Database, session: Session, postId: int): (r: Result<(int, PostRow)>)
    reads db, session
    requires db.Valid()
    ensures !PostReadable(db, postId) ==> r == Err(RecordNotFound)
    ensures PostReadable(db, postId) && session.user.None? ==> r == Err(KeyErr("user"))
    ensures r.Ok? <==> PostReadable(db, postId) && session.user.Some? && db.posts[postId].userId == Some(session.user.value.id)
    ensures r.Ok? ==> r.value == (session.user.value.id, db.posts[postId])
    ensures PostReadable(db, postId) && session.user.Some? && db.posts[postId].userId != Some(session.user.value.id) ==>
              r == Err(Authentication)
  {
    AuthenticateOwner(db.FetchOnePost(postId), (p: PostRow) => p.userId, session.user)
  }

  /** `authenticate_note_rubric_owner`. */
  function AuthenticateNoteRubricOwner(db: Database, session: Session, noteRubricId: int)
    : (r: Result<(int, NoteRubricRow)>)
    reads db, session
    requires db.Valid()
    ensures noteRubricId !in db.noteRubrics ==> r == Err(RecordNotFound)
    ensures noteRubricId in db.noteRubrics && session.user.None? ==> r == Err(KeyErr("user"))
    ensures r.Ok? <==> noteRubricId in db.noteRubrics && session.user.Some? &&
                       db.noteRubrics[noteRubricId].userId == session.user.value.id
    ensures r.Ok? ==> r.value == (session.user.value.id, db.noteRubrics[noteRubricId])
    ensures (noteRubricId in db.noteRubrics && session.user.Some? &&
             db.noteRubrics[noteRubricId].userId != session.user.value.id) ==> r == Err(Authentication)
  {
    AuthenticateOwner(db.FetchOneNoteRubric(noteRubricId), (n: NoteRubricRow) => Some(n.userId), session.user)
  }

  /** `authenticate_note_owner`. */
  function AuthenticateNoteOwner(db: Database, session: Session, noteId: int): (r: Result<(int, NoteRow)>)
    reads db, session
    requires db.Valid()
    ensures !NoteReadable(db, noteId) ==> r == Err(RecordNotFound)
    ensures NoteReadable(db, noteId) && session.user.None? ==> r == Err(KeyErr("user"))
    ensures r.Ok? <==> NoteReadable(db, noteId) && session.user.Some? && db.notes[noteId].userId == session.user.value.id
    ensures r.Ok? ==> r.value == (session.user.value.id, db.notes[noteId])
    ensures NoteReadable(db, noteId) && session.user.Some? && db.notes[noteId].userId != session.user.value.id ==>
              r == Err(Authentication)
  {
    AuthenticateOwner(db.FetchOneNote(noteId), (n: NoteRow) => Some(n.userId), session.user)
  }

  /** Two different logged-in users are never both owners of one post: at
      most one session passes the check for a given record. */
  lemma OwnerIsUnique(db: Database, s1: Session, s2: Session, postId: int)
    requires db.Valid()
    requires AuthenticatePostOwner(db, s1, postId).Ok? && AuthenticatePostOwner(db, s2, postId).Ok?
    ensures s1.user.value.id == s2.user.value.id
  {
  }
}

=== FILE: authorization.dfy ===
/** Registration, log-in and log-out of core/views/auth/authorization.py. */
module Authorization {
  import opened Exceptions
  import opened UserGroups
  import opened Store
  import opened Sessions
  import opened Security

  const LoginBusyMessage := "Login is busy. Choose another, please!"
  const UserNotFoundMessage := "user with the given login was not found"
  const WrongPasswordMessage := "the wrong password given"
  const InsertUserMissingPasswordMessage := "insert_user() missing 1 required positional argument: 'password'"

  /** `_get_user_group`: Admin if the admin flag is set, else Moderator if
      the moderator flag is set, else User. */
  function GetUserGroup(isAdmin: bool, isModerator: bool): (g: Group)
    ensures isAdmin ==> g == Admin
    ensures g == Moderator <==> !isAdmin && isModerator
    ensures g == User <==> !isAdmin && !isModerator
    ensures g != Visitor
  {
    var grant := User;
    var grant := if isModerator then Moderator else grant;
    if isAdmin then Admin else grant
  }

  /** The group of a logged-in group is at least the one each flag grants. */
  lemma GetUserGroupRespectsFlags(isAdmin: bool, isModerator: bool)
    ensures IsSubclass(GetUserGroup(isAdmin, isModerator), User)
    ensures IsSubclass(GetUserGroup(isAdmin, isModerator), Moderator) <==> isAdmin || isModerator
    ensures IsSubclass(GetUserGroup(isAdmin, isModerator), Admin) <==> isAdmin
  {
    var g := GetUserGroup(isAdmin, isModerator);
    SubclassIsRankOrder(g, User);
    SubclassIsRankOrder(g, Moderator);
    SubclassIsRankOrder(g, Admin);
  }

  /** What `authorize_user` stores as `session['user']`: the row without its
      password, with the computed group. */
  function SessionUserOf(u: UserRow): (s: SessionUser)
    ensures s.id == u.id && s.login == u.login
    ensures s.isAdmin == u.isAdmin && s.isModerator == u.isModerator
    ensures s.group == Some(GetUserGroup(u.isAdmin, u.isModerator))
  {
    SessionUser(u.id, u.login, u.isAdmin, u.isModerator, Some(GetUserGroup(u.isAdmin, u.isModerator)))
  }

  /** `_check_login_for_availability`: true iff the lookup by login finds no
      user, under the collation of the `login` column.  An empty login makes
      the lookup raise TypeError, which is not caught. */
  function CheckLoginForAvailability(db: Database, login: string): (r: Result<bool>)
    reads db
    requires db.Valid()
    ensures r == Ok(true) <==> login != "" && forall u :: u in db.users.Values ==> !SameCollated(u.login, login)
    ensures r == Ok(false) <==> login != "" && exists u :: u in db.users.Values && SameCollated(u.login, login)
    ensures login == "" ==> r == Err(TypeErr(FetchOneUserMissingArgument))
  {
    match db.FetchOneUser(None, Some(login), None)
    case Ok(_) => Ok(false)
    case Err(e) => if e == RecordNotFound then Ok(true) else Err(e)
  }

  /** A login the column's collation equates with a stored one is busy: with
      "alice" stored, "ALICE" cannot be registered. */
  lemma CollatedLoginIsBusy(db: Database, id: int, login: string)
    requires db.Valid() && id in db.users && login != "" && SameCollated(db.users[id].login, login)
    ensures CheckLoginForAvailability(db, login) == Ok(false)
  {
    assert db.users[id] in db.users.Values;
  }

  /** `register_user`: insert the login with the hashed password when the
      login is free, else raise RegistrationError and insert nothing. */
  method RegisterUser(db: Database, login: string, password: string, hasher: PasswordHasher, salt: string)
    returns (r: Result<()>)
    requires db.Valid()
    modifies db`users, db`nextUserId
    ensures db.Valid()
    ensures old(CheckLoginForAvailability(db, login)) == Ok(true) ==>
              && r == Ok(())
              && db.users == old(db.users)[old(db.nextUserId) :=
                   UserRow(old(db.nextUserId), login, hasher.hash(password, salt), false, false)]
              && db.nextUserId == old(db.nextUserId) + 1
    ensures old(CheckLoginForAvailability(db, login)) == Ok(false) ==> r == Err(Registration(LoginBusyMessage))
    ensures old(CheckLoginForAvailability(db, login)).Err? ==> r == Err(old(CheckLoginForAvailability(db, login)).error)
    ensures r.Err? ==> db.users == old(db.users) && db.nextUserId == old(db.nextUserId)
    ensures old(db.LoginsUnique()) ==> db.LoginsUnique()
  {
    var available :- CheckLoginForAvailability(db, login);
    if available {
      var hashedPassword := hasher.hash(password, salt);
      db.InsertUser(login, hashedPassword);
      r := Ok(());
    } else {
      r := Err(Registration(LoginBusyMessage));
    }
  }

  /** `register_user` as written: `db.insert_user(connection,
      user_with_hashed_password)` passes one positional argument where
      `insert_user` requires both `login` and `password`, so the call raises
      TypeError for every free login.  The hash is computed and dropped,
      and nothing is stored. */
  function RegisterUserAsWritten(db: Database, login: string): (r: Result<()>)
    reads db
    requires db.Valid()
    ensures r.Err?
    ensures CheckLoginForAvailability(db, login) == Ok(true) ==> r == Err(TypeErr(InsertUserMissingPasswordMessage))
    ensures CheckLoginForAvailability(db, login) == Ok(false) ==> r == Err(Registration(LoginBusyMessage))
    ensures CheckLoginForAvailability(db, login).Err? ==> r == Err(CheckLoginForAvailability(db, login).error)
  {
    var available :- CheckLoginForAvailability(db, login);
    if available then Err(TypeErr(InsertUserMissingPasswordMessage))
    else Err(Registration(LoginBusyMessage))
  }

  /** On an empty store any non-empty login is free, yet registration as
      written raises TypeError, where `RegisterUser` stores the user. */
  lemma RegistrationFailsAsWritten(db: Database, login: string)
    requires db.Valid() && db.users == map[] && login != ""
    ensures CheckLoginForAvailability(db, login) == Ok(true)
    ensures RegisterUserAsWritten(db, login) == Err(TypeErr(InsertUserMissingPasswordMessage))
  {
  }

  /** `authorize_user`: look the login up, check the password, then start a
      new session holding the user without the password and with its group.
      On any error the session is left as it was. */
  method AuthorizeUser(db: Database, session: Session, login: string, password: string, hasher: PasswordHasher)
    returns (r: Result<()>)
    requires db.Valid()
    modifies session
    ensures var found := db.FetchOneUser(None, Some(login), None);
            && (found == Err(RecordNotFound) ==> r == Err(Authorization(UserNotFoundMessage)))
            && (found.Err? && found.error != RecordNotFound ==> r == found.PropagateFailure())
            && (found.Ok? && !hasher.verify(password, found.value.password) ==>
                  r == Err(Authorization(WrongPasswordMessage)))
            && (found.Ok? && hasher.verify(password, found.value.password) ==>
                  r == Ok(()) && session.user == Some(SessionUserOf(found.value)) && session.message == None
                  && session.UserGroup() == Some(GetUserGroup(found.value.isAdmin, found.value.isModerator)))
    ensures r.Err? ==> session.user == old(session.user) && session.message == old(session.message)
  {
    var found := db.FetchOneUser(None, Some(login), None);
    if found == Err(RecordNotFound) {
      return Err(Authorization(UserNotFoundMessage));
    }
    var user :- found;
    if !hasher.verify(password, user.password) {
      return Err(Authorization(WrongPasswordMessage));
    }
    session.Invalidate();
    session.user := Some(SessionUserOf(user));
    r := Ok(());
  }

  /** `logout_user`: the whole session is invalidated. */
  method LogoutUser(session: Session)
    modifies session
    ensures session.user == None && session.message == None
    ensures session.UserGroup() == None
  {
    session.Invalidate();
  }

  /** A user stored by registration can log in with the password it was
      registered with, under any spelling of its login that the column's
      collation equates with it: the lookup finds exactly that row (logins
      are unique under the collation) and its hash verifies. */
  lemma RegisteredUserAuthorizes(db: Database, id: int, login: string, password: string,
                                 hasher: PasswordHasher, salt: string)
    requires db.Valid() && db.LoginsUnique() && hasher.Sound()
    requires id in db.users && db.users[id].password == hasher.hash(password, salt)
    requires login != "" && SameCollated(db.users[id].login, login)
    ensures db.FetchOneUser(None, Some(login), None) == Ok(db.users[id])
    ensures hasher.verify(password, db.FetchOneUser(None, Some(login), None).value.password)
  {
    var u := db.users[id];
    var found := db.FetchOneUser(None, Some(login), None);
    assert u in db.users.Values;
    assert Store.Database.UserSelected(None, Some(login), None, u);
    assert found.Ok?;
    var v := found.value;
    assert v.id in db.users && db.users[v.id] == v;
  }
}

=== FILE: custom_errors.dfy ===
/** The error pages of core/views/custom_errors.py: one handler per status,
    each rendering `error.html` with the three digits of its status and a
    message, and the `errors` table that maps statuses to handlers. */
module CustomErrors {

  /** The template data of an error handler and the status it renders with. */
  datatype ErrorPage = ErrorPage(firstDigit: int, secondDigit: int, thirdDigit: int, message: string, status: int)

  /** The status the template spells out with its three digits. */
  function SpelledStatus(p: ErrorPage): int
  {
    100 * p.firstDigit + 10 * p.secondDigit + p.thirdDigit
  }

  const Handle401 := ErrorPage(4, 0, 1, "Please, login first!", 401)
  const Handle403 := ErrorPage(4, 0, 3, "Sorry, but it is forbidden for you :)", 403)
  const Handle404 := ErrorPage(4, 0, 4, "Hmm... We are lost!", 404)
  const Handle405 := ErrorPage(4, 0, 5, "You on a wrong way! This method not allowed!", 405)
  const Handle500 := ErrorPage(5, 0, 0, "It is not you. It is me :) Sorry!", 500)

  /** `errors`: the overrides the error middleware is set up with. */
  const Errors: map<int, ErrorPage> := map[401 := Handle401, 403 := Handle403, 404 := Handle404,
                                           405 := Handle405, 500 := Handle500]

  /** The table covers exactly five statuses, none of them 400; every page
      spells out its own key and renders with it as its status. */
  lemma ErrorsTable()
    ensures Errors.Keys == {401, 403, 404, 405, 500}
    ensures 400 !in Errors
    ensures forall s :: s in Errors ==> SpelledStatus(Errors[s]) == s && Errors[s].status == s
    ensures forall s :: s in Errors ==> 0 <= Errors[s].secondDigit <= 9 && 0 <= Errors[s].thirdDigit <= 9
  {
  }
}

=== FILE: exceptions.dfy ===
/** The exceptions the request pipeline raises, and Python's `isinstance`
    over them.  A Python `raise` becomes an `Err` of `Result`; a `try/except`
    becomes a test with `IsInstance`, so that catching a base class also
    catches its subclasses, as it does in the source. */
module Exceptions {

  /** One entry of a pydantic validation error: the field and its message. */
  datatype FieldError = FieldError(loc: string, msg: string)

  /** The exceptions that matter to the pipeline, with their arguments. */
  datatype Exc =
    | RecordNotFound                          // database.db.RecordNotFoundError
    | Authentication                          // views.auth.authentication_policy.AuthenticationError
    | Authorization(message: string)          // views.auth.authorization.AuthorizationError
    | Registration(message: string)           // views.auth.authorization.RegistrationError
    | LegacyAuthentication(message: string)   // AuthenticationError of the flat module views/auth.py
    | LegacyAuthorization(message: string)    // AuthorizationError of the flat module views/auth.py
    | Http(status: int, reason: string)       // an aiohttp.web.HTTPException
    | InvalidForm(message: string)            // views.validators.InvalidFormError (a TypeError)
    | InvalidParamValue                       // views.validators.InvalidParamValueError (a ValueError)
    | InvalidParameterType                    // utils.InvalidParameterTypeError
    | Validation(errors: seq<FieldError>)     // pydantic.ValidationError (a ValueError)
    | ValueErr(message: string)               // ValueError
    | TypeErr(message: string)                // TypeError
    | KeyErr(key: string)                     // KeyError
    | ZeroDivision                            // ZeroDivisionError
    | DatabaseError(message: string)          // an error the MySQL server reports for a query

  /** The exception classes an `except` clause can name. */
  datatype ExcClass =
    | ExceptionClass
    | ValueErrorClass
    | TypeErrorClass
    | KeyErrorClass
    | ZeroDivisionErrorClass
    | RecordNotFoundClass
    | UserAccessClass
    | AuthenticationClass
    | AuthorizationClass
    | RegistrationClass
    | LegacyAuthenticationClass
    | LegacyAuthorizationClass
    | HttpExceptionClass
    | HttpStatusClass(status: int)
    | InvalidFormClass
    | InvalidParamValueClass
    | InvalidParameterTypeClass
    | ValidationClass
    | DatabaseErrorClass

  /** `isinstance(e, c)` under the class hierarchy of the source and of Python. */
  predicate IsInstance(e: Exc, c: ExcClass)
  {
    match c
    case ExceptionClass => true
    case ValueErrorClass => e.ValueErr? || e.InvalidParamValue? || e.Validation?
    case TypeErrorClass => e.TypeErr? || e.InvalidForm?
    case KeyErrorClass => e.KeyErr?
    case ZeroDivisionErrorClass => e.ZeroDivision?
    case RecordNotFoundClass => e.RecordNotFound?
    case UserAccessClass => e.Authentication? || e.Authorization? || e.Registration?
    case AuthenticationClass => e.Authentication?
    case AuthorizationClass => e.Authorization?
    case RegistrationClass => e.Registration?
    case LegacyAuthenticationClass => e.LegacyAuthentication?
    case LegacyAuthorizationClass => e.LegacyAuthorization?
    case HttpExceptionClass => e.Http?
    case HttpStatusClass(s) => e.Http? && e.status == s
    case InvalidFormClass => e.InvalidForm?
    case InvalidParamValueClass => e.InvalidParamValue?
    case InvalidParameterTypeClass => e.InvalidParameterType?
    case ValidationClass => e.Validation?
    case DatabaseErrorClass => e.DatabaseError?
  }

  /** The HTTP exceptions aiohttp raises with their default reasons. */
  const BadRequest := Http(400, "Bad Request")
  const Unauthorized := Http(401, "Unauthorized")
  const Forbidden := Http(403, "Forbidden")
  const NotFound := Http(404, "Not Found")

  /** `str(error)` for the exceptions a handler turns into an alert message:
      the message it was raised with, the empty string for one raised bare. */
  function ExcStr(e: Exc): string
  {
    match e
    case Authorization(m) => m
    case Registration(m) => m
    case LegacyAuthentication(m) => m
    case LegacyAuthorization(m) => m
    case Http(_, reason) => reason
    case InvalidForm(m) => m
    case ValueErr(m) => m
    case TypeErr(m) => m
    case KeyErr(k) => "'" + k + "'"
    case DatabaseError(m) => m
    case ZeroDivision => "division by zero"
    case _ => ""
  }

  /** A value or the exception raised instead of returning it. */
  datatype Result<+T> = Ok(value: T) | Err(error: Exc)
  {
    predicate IsFailure() { Err? }

    function PropagateFailure<U>(): Result<U>
      requires Err?
    {
      Err(error)
    }

    function Extract(): T
      requires Ok?
    {
      value
    }
  }

  datatype Option<+T> = None | Some(value: T)
}

=== FILE: helpers.dfy ===
/** The handler helpers of core/views/helpers.py: redirecting back to a form
    with an alert message in the session, and reading an entity id from the
    URL or from the form data. */
module Helpers {
  import opened Exceptions
  import opened PyConvert
  import opened Redirects
  import opened Sessions
  import opened AuthSession
  import opened ModelValidators
  import opened CustomErrors
  import opened Middlewares

  const RedirectBackArgumentMessage :=
    "`redirect_back_to_the_form_with_alert_message_in_session` expected 1 mandatory keyword argument, got 0"
  const FormDataMissingMessage := "the form data do not have expected params"

  /** The ValueError `int()` raises for a string that is not an integer. */
  function IntLiteralMessage(s: string): string
  {
    "invalid literal for int() with base 10: '" + s + "'"
  }

  /** The alert written for an error: the formatted list of field errors for
      a ValidationError, `str(error)` otherwise. */
  function AlertMessage(error: Exc): string
  {
    if IsInstance(error, ValidationClass) then FormattedErrorMessage(error.errors) else ExcStr(error)
  }

  /** `redirect_back_to_the_form_with_alert_message_in_session`.  A truthy
      `redirect_url` wins over a truthy `redirect_route_name`; with neither
      it raises TypeError before anything is written.  Otherwise the alert
      is put in the session and a 302 redirect is returned. */
  method RedirectBack(session: Session, error: Exc, redirectUrl: Option<string>, redirectRouteName: Option<string>,
                      kwargs: map<string, Value>)
    returns (r: Result<Redirect>)
    modifies session`message
    ensures redirectUrl.Some? && redirectUrl.value != "" ==> r == Ok(RedirectByUrl(redirectUrl.value, false))
    ensures !(redirectUrl.Some? && redirectUrl.value != "") && redirectRouteName.Some? && redirectRouteName.value != "" ==>
              r == Ok(RedirectByRouteName(redirectRouteName.value, false, kwargs))
    ensures r.Err? <==> !(redirectUrl.Some? && redirectUrl.value != "") &&
                        !(redirectRouteName.Some? && redirectRouteName.value != "")
    ensures r.Err? ==> r.error == TypeErr(RedirectBackArgumentMessage) && session.message == old(session.message)
    ensures r.Ok? ==> r.value.status == FoundStatus && session.message == Some(AlertMessage(error))
  {
    var redirect: Redirect;
    if redirectUrl.Some? && redirectUrl.value != "" {
      redirect := RedirectByUrl(redirectUrl.value, false);
    } else if redirectRouteName.Some? && redirectRouteName.value != "" {
      redirect := RedirectByRouteName(redirectRouteName.value, false, kwargs);
    } else {
      return Err(TypeErr(RedirectBackArgumentMessage));
    }
    var alertMessage := AlertMessage(error);
    PutAlertMessageInSession(session, alertMessage);
    r := Ok(redirect);
  }

  /** The alert of a ValidationError, split at its newlines, has one line per
      field error, in order: the padded field name, ' - ' and the message. */
  lemma ValidationAlertLines(errors: seq<FieldError>)
    requires |errors| >= 1
    requires forall i :: 0 <= i < |errors| ==> NoNewline(errors[i].loc) && NoNewline(errors[i].msg)
    ensures |SplitLines(AlertMessage(Validation(errors)))| == |errors|
    ensures forall i :: 0 <= i < |errors| ==>
              SplitLines(AlertMessage(Validation(errors)))[i] == PadRight(errors[i].loc, 10) + " - " + errors[i].msg
  {
    FormattedMessageLines(errors);
  }

  /** `get_id_param_from_url`: `int(request.match_info['id'])`. */
  function GetIdParamFromUrl(matchInfo: map<string, string>): (r: Result<int>)
    ensures "id" !in matchInfo ==> r == Err(KeyErr("id"))
    ensures "id" in matchInfo ==> (r.Ok? <==> ParseInt(matchInfo["id"]).Some?)
    ensures "id" in matchInfo && r.Ok? ==> ParseInt(matchInfo["id"]) == Some(r.value)
    ensures "id" in matchInfo && r.Err? ==> r.error == ValueErr(IntLiteralMessage(matchInfo["id"]))
  {
    if "id" !in matchInfo then Err(KeyErr("id"))
    else
      match ParseInt(matchInfo["id"])
      case Some(i) => Ok(i)
      case None => Err(ValueErr(IntLiteralMessage(matchInfo["id"])))
  }

  /** `get_id_param_from_form_data`: `int(data['id'])`, with the KeyError
      of a missing id raised as HTTPBadRequest. */
  function GetIdParamFromFormData(data: map<string, string>): (r: Result<int>)
    ensures "id" !in data ==> r == Err(Http(400, FormDataMissingMessage))
    ensures "id" in data ==> (r.Ok? <==> ParseInt(data["id"]).Some?)
    ensures "id" in data && r.Ok? ==> ParseInt(data["id"]) == Some(r.value)
    ensures "id" in data && r.Err? ==> r.error == ValueErr(IntLiteralMessage(data["id"]))
  {
    if "id" !in data then Err(Http(400, FormDataMissingMessage))
    else
      match ParseInt(data["id"])
      case Some(i) => Ok(i)
      case None => Err(ValueErr(IntLiteralMessage(data["id"])))
  }

  /** An id written out as a decimal string is read back by both parsers,
      and the two agree whenever the id is present. */
  lemma IdParamRoundTrip(n: int, data: map<string, string>)
    ensures GetIdParamFromUrl(map["id" := IntToString(n)]) == Ok(n)
    ensures GetIdParamFromFormData(map["id" := IntToString(n)]) == Ok(n)
    ensures "id" in data ==> GetIdParamFromUrl(data) == GetIdParamFromFormData(data)
  {
    ParseIntToString(n);
  }

  /** A form without an id reaches the client as the bare 400: the error
      pages have no entry for it, so the error middleware re-raises it. */
  lemma MissingFormIdIsReRaised<R>(data: map<string, string>, render: ErrorPage -> R)
    requires "id" !in data
    ensures var e := GetIdParamFromFormData(data).error;
            ErrorMiddleware(map s | s in Errors :: render(Errors[s]), Err(e)) == Err(e)
  {
    ErrorsTable();
  }
}

=== FILE: legacy_auth.dfy ===
/** The older flat module core/views/auth.py: authorization that returns the
    user record instead of writing the session, and an id comparison with
    the session user.  Its exception classes are its own, distinct from
    those of the package core/views/auth/.  Its login-availability check is
    the same code as the package's and is modelled once, by
    `Authorization.CheckLoginForAvailability`. */
module LegacyAuth {
  import opened Exceptions
  import opened Store
  import opened Sessions
  import opened Security
  import opened Authorization
  import opened AuthenticationPolicy

  const UserIdMismatchMessage := "given user-id does not correspond to session user-id"

  /** A `users` row after `del user['password']`. */
  datatype UserRecord = UserRecord(id: int, login: string, isAdmin: bool, isModerator: bool)

  function WithoutPassword(u: UserRow): (r: UserRecord)
    ensures r.id == u.id && r.login == u.login && r.isAdmin == u.isAdmin && r.isModerator == u.isModerator
  {
    UserRecord(u.id, u.login, u.isAdmin, u.isModerator)
  }

  /** `authorize_user`: the user's record without the password when the
      login exists and the password matches its hash. */
  function AuthorizeUser(db: Database, login: string, password: string, hasher: PasswordHasher): (r: Result<UserRecord>)
    reads db
    requires db.Valid()
    ensures var found := db.FetchOneUser(None, Some(login), None);
            && (found == Err(RecordNotFound) ==> r == Err(LegacyAuthorization(UserNotFoundMessage)))
            && (found.Err? && found.error != RecordNotFound ==> r == Err(found.error))
            && (found.Ok? && !hasher.verify(password, found.value.password) ==>
                  r == Err(LegacyAuthorization(WrongPasswordMessage)))
            && (found.Ok? && hasher.verify(password, found.value.password) ==>
                  r == Ok(WithoutPassword(found.value)))
  {
    var found := db.FetchOneUser(None, Some(login), None);
    if found == Err(RecordNotFound) then Err(LegacyAuthorization(UserNotFoundMessage))
    else
      var user :- found;
      if !hasher.verify(password, user.password) then Err(LegacyAuthorization(WrongPasswordMessage))
      else Ok(WithoutPassword(user))
  }

  /** A registered user logs in through the older module as well, under
      any spelling of its login the collation equates, and gets back its own
      record. */
  lemma RegisteredUserAuthorizesLegacy(db: Database, id: int, login: string, password: string,
                                       hasher: PasswordHasher, salt: string)
    requires db.Valid() && db.LoginsUnique() && hasher.Sound()
    requires id in db.users && db.users[id].password == hasher.hash(password, salt)
    requires login != "" && SameCollated(db.users[id].login, login)
    ensures AuthorizeUser(db, login, password, hasher) == Ok(WithoutPassword(db.users[id]))
  {
    RegisteredUserAuthorizes(db, id, login, password, hasher, salt);
  }

  /** `authenticate_user`: KeyError with nobody logged in, the module's
      AuthenticationError when the id differs from the session user's. */
  function AuthenticateUser(sessionUser: Option<SessionUser>, userId: int): (r: Result<()>)
    ensures sessionUser.None? ==> r == Err(KeyErr("user"))
    ensures sessionUser.Some? ==> (r.Ok? <==> userId == sessionUser.value.id)
    ensures r.Err? && sessionUser.Some? ==> r == Err(LegacyAuthentication(UserIdMismatchMessage))
  {
    if sessionUser.None? then Err(KeyErr("user"))
    else if userId != sessionUser.value.id then Err(LegacyAuthentication(UserIdMismatchMessage))
    else Ok(())
  }

  /** The older id check and the newer ownership check accept the same
      owner for the same session, though they raise different classes. */
  lemma OwnerChecksAgree<T>(record: T, ownerId: int, sessionUser: Option<SessionUser>)
    ensures AuthenticateUser(sessionUser, ownerId).Ok? <==>
            AuthenticateOwner(Ok(record), (_: T) => Some(ownerId), sessionUser).Ok?
    ensures !IsInstance(LegacyAuthentication(UserIdMismatchMessage), AuthenticationClass)
  {
  }
}

=== FILE: login_required.dfy ===
/** The older grant-string gate `login_required` of core/views/session.py.
    It reads the flags `is_moderator` and `is_admin` of `session['user']`
    rather than its group. */
module LoginRequired {
  import opened Exceptions
  import opened UserGroups
  import opened Store
  import opened Sessions
  import opened Authorization
  import opened AuthSession
  import opened Redirects

  /** The `grant` keyword: a string, or an object of some other type whose
      `type()` prints as `typeRepr`. */
  datatype GrantArg = GrantStr(name: string) | GrantNonStr(typeRepr: string)

  const UnknownGrantMessage :=
    "Keyword argument `grant` may have only value that in possible arguments list. Check the function doc string!"

  function NonStrGrantMessage(typeRepr: string): string
  {
    "Keyword argument `grant` might be only str type. Not " + typeRepr
  }

  predicate KnownGrant(name: string)
  {
    name == "user" || name == "moderator" || name == "admin"
  }

  /** Whether a logged-in user holds the grant named. */
  predicate HoldsGrant(name: string, u: SessionUser)
    requires KnownGrant(name)
  {
    if name == "user" then true
    else if name == "moderator" then u.isModerator || u.isAdmin
    else u.isAdmin
  }

  /** `login_required`: 401 with nobody logged in, whatever the grant; for a
      logged-in user the handler's outcome unchanged when the grant is held,
      403 when it is not, and an argument error for an unknown grant. */
  function LoginRequired<R>(grant: GrantArg, sessionUser: Option<SessionUser>, handler: Result<R>): (r: Result<R>)
    ensures sessionUser.None? ==> r == Err(Unauthorized)
    ensures sessionUser.Some? && grant.GrantStr? && KnownGrant(grant.name) ==>
              r == if HoldsGrant(grant.name, sessionUser.value) then handler else Err(Forbidden)
    ensures sessionUser.Some? && grant.GrantStr? && !KnownGrant(grant.name) ==> r == Err(ValueErr(UnknownGrantMessage))
    ensures sessionUser.Some? && grant.GrantNonStr? ==> r == Err(TypeErr(NonStrGrantMessage(grant.typeRepr)))
  {
    if sessionUser.None? then Err(Unauthorized)
    else
      var u := sessionUser.value;
      if grant == GrantStr("user") then handler
      else if grant == GrantStr("moderator") then
        if !(u.isModerator || u.isAdmin) then Err(Forbidden) else handler
      else if grant == GrantStr("admin") then
        if !u.isAdmin then Err(Forbidden) else handler
      else if grant.GrantStr? then Err(ValueErr(UnknownGrantMessage))
      else Err(TypeErr(NonStrGrantMessage(grant.typeRepr)))
  }

  /** Grants are nested: admitted at 'admin' implies admitted at
      'moderator', which implies admitted at 'user'. */
  lemma GrantContainment<R>(sessionUser: Option<SessionUser>, v: R)
    ensures LoginRequired(GrantStr("admin"), sessionUser, Ok(v)) == Ok(v) ==>
            LoginRequired(GrantStr("moderator"), sessionUser, Ok(v)) == Ok(v)
    ensures LoginRequired(GrantStr("moderator"), sessionUser, Ok(v)) == Ok(v) ==>
            LoginRequired(GrantStr("user"), sessionUser, Ok(v)) == Ok(v)
  {
  }

  /** When the gate refuses, its outcome is the same for every handler. */
  lemma RefusalIgnoresHandler<R>(grant: GrantArg, sessionUser: Option<SessionUser>, h1: Result<R>, h2: Result<R>)
    requires sessionUser.None? || !grant.GrantStr? || !KnownGrant(grant.name) || !HoldsGrant(grant.name, sessionUser.value)
    ensures LoginRequired(grant, sessionUser, h1) == LoginRequired(grant, sessionUser, h2)
  {
  }

  /** The grant a group gate stands for. */
  function GrantOf(g: Group): (name: string)
    requires g != Visitor
    ensures KnownGrant(name)
  {
    match g
    case User => "user"
    case Moderator => "moderator"
    case Admin => "admin"
  }

  /** For a session that log-in created, the two gates agree: the grant
      string and the group it stands for admit the same users. */
  lemma GatesAgree(row: UserRow, required: Group)
    requires required != Visitor
    ensures HoldsGrant(GrantOf(required), SessionUserOf(row)) <==> Admits(required, SessionUserOf(row).group)
  {
    GetUserGroupRespectsFlags(row.isAdmin, row.isModerator);
  }

  /** The group gate reads the group log-in stored in the session: for a
      session created by log-in, a gate above Visitor serves the user iff
      its group ranks at least the required one and raises 403 otherwise,
      and the Visitor gate sends it to the index. */
  lemma LoggedInSessionAtGate<R>(session: Session, row: UserRow, required: Group, handler: Result<R>)
    requires session.user == Some(SessionUserOf(row))
    ensures required == Visitor ==> GroupAccess(required, session.UserGroup(), handler) == Ok(Redirected(IndexRedirect()))
    ensures required != Visitor ==>
              GroupAccess(required, session.UserGroup(), handler) ==
              if Rank(GetUserGroup(row.isAdmin, row.isModerator)) >= Rank(required) then Run(handler) else Err(Forbidden)
  {
    if required != Visitor {
      AdmitsIsRankOrder(required, GetUserGroup(row.isAdmin, row.isModerator));
    }
  }

  /** After log-out the Visitor gate serves the page and every other gate
      raises 401. */
  lemma LoggedOutSessionAtGate<R>(session: Session, required: Group, handler: Result<R>)
    requires session.user == None
    ensures GroupAccess(required, session.UserGroup(), handler) ==
              if required == Visitor then Run(handler) else Err(Unauthorized)
  {
  }
}

=== FILE: middlewares.dfy ===
/** The error middleware of core/middlewares.py: it runs the handler and
    turns some of the exceptions it raises into the response of an override
    (the handler of an error page) or into an HTTP error. */
module Middlewares {
  import opened Exceptions
  import opened CustomErrors

  /** `error_middleware` of `create_error_middleware(overrides)`.  An
      override is represented by the response it gives for this request,
      and the handler by its outcome.  The `except` clauses are tried in
      order, and an exception raised inside one of them is not caught by
      the clauses after it. */
  function ErrorMiddleware<R>(overrides: map<int, R>, outcome: Result<R>): (r: Result<R>)
    ensures outcome.Ok? ==> r == outcome
    ensures outcome == Err(RecordNotFound) ==>
              r == if 404 in overrides then Ok(overrides[404]) else Err(NotFound)
    ensures outcome == Err(Authentication) ==> r == Err(Forbidden)
    ensures outcome.Err? && outcome.error.Http? ==>
              r == if outcome.error.status in overrides then Ok(overrides[outcome.error.status]) else outcome
    ensures outcome.Err? && !IsInstance(outcome.error, RecordNotFoundClass) &&
            !IsInstance(outcome.error, AuthenticationClass) && !IsInstance(outcome.error, HttpExceptionClass) ==>
              r == outcome
  {
    match outcome
    case Ok(_) => outcome
    case Err(e) =>
      if IsInstance(e, RecordNotFoundClass) then
        if 404 in overrides then Ok(overrides[404]) else Err(NotFound)
      else if IsInstance(e, AuthenticationClass) then Err(Forbidden)
      else if IsInstance(e, HttpExceptionClass) then
        if e.status in overrides then Ok(overrides[e.status]) else outcome
      else outcome
  }

  /** Nothing the store or the ownership check raises gets past the
      middleware: what escapes is an HTTP error or an exception of a kind
      the middleware does not handle, and a response is either the
      handler's or an override's. */
  lemma MiddlewareTranslates<R>(overrides: map<int, R>, outcome: Result<R>)
    ensures var r := ErrorMiddleware(overrides, outcome);
            && (r.Err? ==> !r.error.RecordNotFound? && !r.error.Authentication?)
            && (r.Err? && outcome.Err? && r.error != outcome.error ==> r.error in {NotFound, Forbidden})
            && (r.Ok? ==> outcome.Ok? || r.value in overrides.Values)
            && (r.Ok? <==> outcome.Ok? || (outcome.error.RecordNotFound? && 404 in overrides) ||
                           (outcome.error.Http? && outcome.error.status in overrides))
  {
  }

  /** With the error pages of the application as overrides: every HTTP error
      of a listed status gets the page for that status, a missing record
      gets the 404 page, a failed ownership check becomes a bare 403 that
      bypasses the 403 page, and a 400 is re-raised unchanged. */
  lemma ErrorPagesServed<R>(render: ErrorPage -> R, outcome: Result<R>)
    ensures var overrides := map s | s in Errors :: render(Errors[s]);
            var r := ErrorMiddleware(overrides, outcome);
            && (outcome.Err? && outcome.error.Http? && outcome.error.status in Errors ==>
                  r == Ok(render(Errors[outcome.error.status])) &&
                  Errors[outcome.error.status].status == outcome.error.status)
            && (outcome == Err(RecordNotFound) ==> r == Ok(render(Handle404)))
            && (outcome == Err(Authentication) ==> r == Err(Forbidden))
            && (outcome.Err? && outcome.error.Http? && outcome.error.status == 400 ==> r == outcome)
  {
    ErrorsTable();
  }
}

=== FILE: model_validators.dfy ===
/** The input models of core/database/validators.py: the empty-value
    converter, the length bounds of each model's string fields, the image
    extension check and the formatter of validation errors.  Pydantic's own
    type coercion is not modelled; each string field is checked against its
    declared bounds. */
module ModelValidators {
  import opened Exceptions
  import PyConvert

  // ------------------------------------------------------------------ convert_empty_value

  /** The Python values a form field can carry into a model. */
  datatype PyValue = PyNone | PyBool(b: bool) | PyInt(i: int) | PyStr(s: string)

  predicate Truthy(v: PyValue)
  {
    match v
    case PyNone => false
    case PyBool(b) => b
    case PyInt(i) => i != 0
    case PyStr(s) => s != ""
  }

  /** `param == -1`: only an integer -1 compares equal (True is 1 and
      False is 0 in Python). */
  predicate EqualsMinusOne(v: PyValue)
  {
    v == PyInt(-1)
  }

  /** `convert_empty_value`: None for a falsy value, the integer -1 and the
      string 'None'; every other value unchanged. */
  function ConvertEmptyValue(param: PyValue): (r: PyValue)
    ensures r == PyNone <==> !Truthy(param) || param == PyInt(-1) || param == PyStr("None")
    ensures r != PyNone ==> r == param
  {
    if !Truthy(param) || EqualsMinusOne(param) || param == PyStr("None") then PyNone else param
  }

  /** Converting twice is converting once; the string '-1' is not empty. */
  lemma ConvertEmptyValueIdempotent(param: PyValue)
    ensures ConvertEmptyValue(ConvertEmptyValue(param)) == ConvertEmptyValue(param)
    ensures ConvertEmptyValue(PyStr("-1")) == PyStr("-1")
    ensures ConvertEmptyValue(PyInt(0)) == PyNone && ConvertEmptyValue(PyBool(false)) == PyNone
  {
  }

  // ------------------------------------------------------------------ length bounds

  /** `Field(min_length=…, max_length=…)` on a string field. */
  datatype Bounds = Bounds(minLength: nat, maxLength: Option<nat>)

  const LoginBounds := Bounds(5, Some(255))
  const PasswordBounds := Bounds(5, Some(255))
  const RubricTitleBounds := Bounds(3, Some(255))
  const PostTitleBounds := Bounds(5, Some(255))
  const PostContentBounds := Bounds(5, None)
  const NoteContentBounds := Bounds(3, None)

  predicate Within(s: string, b: Bounds)
  {
    b.minLength <= |s| && (b.maxLength.None? || |s| <= b.maxLength.value)
  }

  /** A string field: its name, its value and its bounds. */
  datatype StrField = StrField(name: string, value: string, bounds: Bounds)

  /** The error pydantic reports for a value outside its bounds; the lower
      bound is checked first. */
  function LengthError(f: StrField): (e: FieldError)
    requires !Within(f.value, f.bounds)
    ensures e.loc == f.name
  {
    if |f.value| < f.bounds.minLength then
      FieldError(f.name, "ensure this value has at least " + PyConvert.NatToString(f.bounds.minLength) + " characters")
    else
      FieldError(f.name, "ensure this value has at most " + PyConvert.NatToString(f.bounds.maxLength.value) + " characters")
  }

  /** The errors of a model's string fields, in field order. */
  function CheckFields(fields: seq<StrField>): (errors: seq<FieldError>)
    ensures |errors| == 0 <==> forall i :: 0 <= i < |fields| ==> Within(fields[i].value, fields[i].bounds)
  {
    if |fields| == 0 then []
    else
      assert forall i :: 1 <= i < |fields| ==> fields[i] == fields[1..][i - 1];
      (if Within(fields[0].value, fields[0].bounds) then [] else [LengthError(fields[0])]) + CheckFields(fields[1..])
  }

  /** Every report names a field whose bound is violated. */
  lemma {:induction false} CheckFieldsReportsOnlyViolations(fields: seq<StrField>, j: int)
    requires 0 <= j < |CheckFields(fields)|
    ensures exists i :: 0 <= i < |fields| && fields[i].name == CheckFields(fields)[j].loc &&
                        !Within(fields[i].value, fields[i].bounds)
  {
    var rest := fields[1..];
    var head := if Within(fields[0].value, fields[0].bounds) then [] else [LengthError(fields[0])];
    assert CheckFields(fields) == head + CheckFields(rest);
    if j < |head| {
      assert CheckFields(fields)[j] == LengthError(fields[0]);
    } else {
      CheckFieldsReportsOnlyViolations(rest, j - |head|);
      var i :| 0 <= i < |rest| && rest[i].name == CheckFields(rest)[j - |head|].loc &&
               !Within(rest[i].value, rest[i].bounds);
      assert fields[i + 1] == rest[i];
    }
  }

  /** Every violated bound is reported. */
  lemma {:induction false} CheckFieldsReportsEveryViolation(fields: seq<StrField>, i: int)
    requires 0 <= i < |fields| && !Within(fields[i].value, fields[i].bounds)
    ensures LengthError(fields[i]) in CheckFields(fields)
  {
    var rest := fields[1..];
    if i > 0 {
      assert fields[i] == rest[i - 1];
      CheckFieldsReportsEveryViolation(rest, i - 1);
    }
  }

  /** A model built from its string fields, or ValidationError with every
      violated bound. */
  function Validate(fields: seq<StrField>): (r: Result<seq<string>>)
    ensures r.Ok? <==> forall i :: 0 <= i < |fields| ==> Within(fields[i].value, fields[i].bounds)
    ensures r.Ok? ==> |r.value| == |fields| && forall i :: 0 <= i < |fields| ==> r.value[i] == fields[i].value
    ensures r.Err? ==> r.error.Validation? && |r.error.errors| > 0
  {
    var errors := CheckFields(fields);
    if |errors| == 0 then Ok(seq(|fields|, i requires 0 <= i < |fields| => fields[i].value))
    else Err(Validation(errors))
  }

  /** `UserCreation` and `UserAuthorization`. */
  function ValidateUser(login: string, password: string): (r: Result<seq<string>>)
    ensures r.Ok? <==> 5 <= |login| <= 255 && 5 <= |password| <= 255
    ensures r.Ok? ==> r.value == [login, password]
  {
    var fields := [StrField("login", login, LoginBounds), StrField("password", password, PasswordBounds)];
    assert (forall i :: 0 <= i < |fields| ==> Within(fields[i].value, fields[i].bounds)) <==>
           Within(login, LoginBounds) && Within(password, PasswordBounds) by {
      assert fields[0].value == login && fields[1].value == password;
    }
    var r := Validate(fields);
    assert r.Ok? ==> r.value == [login, password];
    r
  }

  /** `UserSettingsEditingLogin` and `UserSettingsEditingPassword`: a single
      field with the login or the password bounds, reported under its name. */
  function ValidateUserSetting(field: string, value: string): (r: Result<seq<string>>)
    requires field == "new_login" || field == "new_password"
    ensures r.Ok? <==> 5 <= |value| <= 255
    ensures r.Ok? ==> r.value == [value]
    ensures r.Err? ==> r.error.Validation? && |r.error.errors| == 1 && r.error.errors[0].loc == field
  {
    var f := StrField(field, value, if field == "new_login" then LoginBounds else PasswordBounds);
    assert Within(value, f.bounds) ==> CheckFields([f]) == [];
    assert !Within(value, f.bounds) ==> CheckFields([f]) == [LengthError(f)];
    Validate([f])
  }

  /** `PostRubricCreation`, `PostRubricEditing`, `NoteRubricCreation` and
      `NoteRubricEditing`. */
  function ValidateRubricTitle(title: string): (r: Result<seq<string>>)
    ensures r.Ok? <==> 3 <= |title| <= 255
  {
    Validate([StrField("title", title, RubricTitleBounds)])
  }

  /** `PostCreation` and `PostEditing`: bounded title and content, and the
      rubric id through `convert_empty_value`. */
  function ValidatePost(title: string, content: string, rubricId: PyValue): (r: Result<(string, string, PyValue)>)
    ensures r.Ok? <==> 5 <= |title| <= 255 && 5 <= |content|
    ensures r.Ok? ==> r.value == (title, content, ConvertEmptyValue(rubricId))
  {
    var fields := [StrField("title", title, PostTitleBounds), StrField("content", content, PostContentBounds)];
    assert (forall i :: 0 <= i < |fields| ==> Within(fields[i].value, fields[i].bounds)) <==>
           Within(title, PostTitleBounds) && Within(content, PostContentBounds) by {
      assert fields[0].value == title && fields[1].value == content;
    }
    var checked :- Validate(fields);
    Ok((title, content, ConvertEmptyValue(rubricId)))
  }

  /** `NoteCreation` and `NoteEditing`. */
  function ValidateNote(content: string, rubricId: PyValue): (r: Result<(string, PyValue)>)
    ensures r.Ok? <==> 3 <= |content|
    ensures r.Ok? ==> r.value == (content, ConvertEmptyValue(rubricId))
  {
    var checked :- Validate([StrField("content", content, NoteContentBounds)]);
    Ok((content, ConvertEmptyValue(rubricId)))
  }

  // ------------------------------------------------------------------ FileIsImage

  const ImageExtensions: set<string> := {".png", ".jpeg", ".jpg"}
  const UnsupportedExtensionPrefix := "unsupported extension of the image; supported: "

  /** The last index of `c` in `s`, or -1. */
  function RFind(s: string, c: char): (k: int)
    ensures -1 <= k < |s|
    ensures k >= 0 ==> s[k] == c
    ensures forall j :: k < j < |s| ==> s[j] != c
  {
    if |s| == 0 then -1
    else if s[|s| - 1] == c then |s| - 1
    else RFind(s[..|s| - 1], c)
  }

  /** Whether every character of `s[lo..hi]` is a dot. */
  predicate AllDots(s: string, lo: int, hi: int)
    requires 0 <= lo <= hi <= |s|
  {
    forall j :: lo <= j < hi ==> s[j] == '.'
  }

  /** `os.path.splitext` on POSIX: the extension starts at the last dot of
      the last path component, unless only dots precede it there. */
  function SplitExt(p: string): (r: (string, string))
    ensures r.0 + r.1 == p
    ensures r.1 == "" || (r.1[0] == '.' && forall j :: 1 <= j < |r.1| ==> r.1[j] != '.' && r.1[j] != '/')
  {
    var sepIndex := RFind(p, '/');
    var dotIndex := RFind(p, '.');
    if dotIndex > sepIndex && !AllDots(p, sepIndex + 1, dotIndex) then
      assert p[..dotIndex] + p[dotIndex..] == p;
      (p[..dotIndex], p[dotIndex..])
    else
      assert p + "" == p;
      (p, "")
  }

  /** `FileIsImage.is_file_with_image_extension`: the name back when its
      extension is one of the three, ValueError otherwise. */
  function IsFileWithImageExtension(filename: string): (r: Result<string>)
    ensures r.Ok? <==> SplitExt(filename).1 in ImageExtensions
    ensures r.Ok? ==> r.value == filename
    ensures r.Err? ==> r.error.ValueErr? && UnsupportedExtensionPrefix <= r.error.message
  {
    var (_, fileExt) := SplitExt(filename);
    if fileExt in ImageExtensions then Ok(filename)
    else Err(ValueErr(UnsupportedExtensionPrefix + ".png | .jpeg | .jpg"))
  }

  /** The check is exact and case-sensitive: an accepted name ends with one
      of the three extensions, and an upper-case extension is refused. */
  lemma ImageExtensionExamples(stem: string)
    requires IsFileWithImageExtension(stem).Ok?
    ensures exists e :: e in ImageExtensions && |e| <= |stem| && stem[|stem| - |e|..] == e
    ensures IsFileWithImageExtension("photo.PNG").Err?
    ensures IsFileWithImageExtension(".png").Err?
  {
    var (root, ext) := SplitExt(stem);
    assert stem[|stem| - |ext|..] == ext;
    var hidden := ".png";
    assert hidden[0] == '.' && hidden[1] == 'p' && hidden[2] == 'n' && hidden[3] == 'g';
    assert RFind(hidden, '/') == -1;
    assert RFind(hidden, '.') == 0;
    assert SplitExt(hidden).1 == "";
    var upper := "photo.PNG";
    assert upper[0] == 'p' && upper[5] == '.' && upper[6] == 'P' && upper[7] == 'N' && upper[8] == 'G';
    assert forall j :: 0 <= j < |upper| ==> upper[j] != '/';
    assert RFind(upper, '/') == -1;
    assert RFind(upper, '.') == 5;
    assert !AllDots(upper, 0, 5);
    assert SplitExt(upper).1 == upper[5..] == ".PNG";
  }

  // ------------------------------------------------------------------ get_formatted_error_message

  function Spaces(n: nat): (r: string)
    ensures |r| == n && forall j :: 0 <= j < n ==> r[j] == ' '
  {
    if n == 0 then "" else Spaces(n - 1) + " "
  }

  /** `f"{loc:<10}"`: left-aligned, padded with spaces on the right to ten
      characters; a longer name is kept whole. */
  function PadRight(s: string, width: nat): (r: string)
    ensures |r| == if |s| >= width then |s| else width
    ensures r[..|s|] == s
    ensures forall j :: |s| <= j < |r| ==> r[j] == ' '
  {
    if |s| >= width then s else s + Spaces(width - |s|)
  }

  /** One line of the message: the field name padded to ten, ' - ', the text. */
  function FormatErrorLine(e: FieldError): string
  {
    PadRight(e.loc, 10) + " - " + e.msg
  }

  /** `'\n'.join(lines)`. */
  function JoinLines(lines: seq<string>): string
  {
    if |lines| == 0 then ""
    else if |lines| == 1 then lines[0]
    else lines[0] + "\n" + JoinLines(lines[1..])
  }

  /** The index of the first newline of `s`, or `|s|` when there is none. */
  function NewlineIndex(s: string): (k: nat)
    ensures k <= |s| && (k < |s| ==> s[k] == '\n')
    ensures forall j :: 0 <= j < k ==> s[j] != '\n'
  {
    if |s| == 0 || s[0] == '\n' then 0 else 1 + NewlineIndex(s[1..])
  }

  /** `s.split('\n')`. */
  function SplitLines(s: string): (r: seq<string>)
    ensures |r| >= 1
    decreases |s|
  {
    var k := NewlineIndex(s);
    if k == |s| then [s] else [s[..k]] + SplitLines(s[k + 1..])
  }

  /** `get_formatted_error_message`. */
  function FormattedErrorMessage(errors: seq<FieldError>): string
  {
    JoinLines(seq(|errors|, i requires 0 <= i < |errors| => FormatErrorLine(errors[i])))
  }

  predicate NoNewline(s: string)
  {
    forall j :: 0 <= j < |s| ==> s[j] != '\n'
  }

  /** The first newline after a line without one is the separator. */
  lemma NewlineIndexAfterLine(a: string, b: string)
    requires NoNewline(a)
    ensures NewlineIndex(a + "\n" + b) == |a|
  {
    var s := a + "\n" + b;
    assert s[|a|] == '\n';
    assert forall j :: 0 <= j < |a| ==> s[j] == a[j];
  }

  /** Splitting the joined lines gives the lines back. */
  lemma {:induction false} SplitJoin(lines: seq<string>)
    requires |lines| >= 1 && forall i :: 0 <= i < |lines| ==> NoNewline(lines[i])
    ensures SplitLines(JoinLines(lines)) == lines
  {
    if |lines| == 1 {
      assert NoNewline(lines[0]);
      assert NewlineIndex(lines[0]) == |lines[0]|;
    } else {
      var a, rest := lines[0], JoinLines(lines[1..]);
      var s := a + "\n" + rest;
      assert JoinLines(lines) == s;
      assert NoNewline(a);
      NewlineIndexAfterLine(a, rest);
      assert s[..|a|] == a;
      assert s[|a| + 1..] == rest;
      assert forall i :: 0 <= i < |lines[1..]| ==> lines[1..][i] == lines[i + 1];
      SplitJoin(lines[1..]);
    }
  }

  /** The formatted message has one line per error, in order, and each line
      is the padded field name, ' - ' and the message (when no field name or
      message itself contains a newline). */
  lemma FormattedMessageLines(errors: seq<FieldError>)
    requires |errors| >= 1
    requires forall i :: 0 <= i < |errors| ==> NoNewline(errors[i].loc) && NoNewline(errors[i].msg)
    ensures |SplitLines(FormattedErrorMessage(errors))| == |errors|
    ensures forall i :: 0 <= i < |errors| ==> SplitLines(FormattedErrorMessage(errors))[i] == FormatErrorLine(errors[i])
  {
    var lines := seq(|errors|, i requires 0 <= i < |errors| => FormatErrorLine(errors[i]));
    forall i | 0 <= i < |lines| ensures NoNewline(lines[i]) {
      var e := errors[i];
      var pad := PadRight(e.loc, 10);
      assert lines[i] == pad + " - " + e.msg;
      forall j | 0 <= j < |lines[i]| ensures lines[i][j] != '\n' {
        if j < |e.loc| {
          assert lines[i][j] == e.loc[j];
        } else if j < |pad| {
          assert lines[i][j] == pad[j];
        } else if j >= |pad| + 3 {
          assert lines[i][j] == e.msg[j - |pad| - 3];
        }
      }
    }
    SplitJoin(lines);
  }
}

=== FILE: pagination.dfy ===
/** The page links of core/views/pagination.py: the number of pages of an
    entity and which neighbouring page numbers and separators a list page
    shows. */
module Pagination {
  import opened Exceptions
  import opened Store

  const DefaultPageNumbersSeparator := "..."

  /** Python's `a // b`: the quotient rounded towards minus infinity. */
  function FloorDiv(a: int, b: int): (q: int)
    requires b != 0
    ensures b > 0 ==> q * b <= a < (q + 1) * b
    ensures b < 0 ==> (q + 1) * b < a <= q * b
  {
    if b > 0 then a / b else (-a) / (-b)
  }

  /** `math.ceil(a / b)`: the least integer not below the quotient. */
  function CeilDiv(a: int, b: int): (q: int)
    requires b != 0
    ensures b > 0 ==> (q - 1) * b < a <= q * b
    ensures b < 0 ==> q * b <= a < (q - 1) * b
  {
    -FloorDiv(-a, b)
  }

  /** `Pagination(connection, entity, page_number=1, rows_quantity=10)`. */
  datatype Pagination = Pagination(entity: EntityArg, pageNumber: int, rowsQuantityForPage: int)

  /** `count_pages_quantity`: the entity's rows divided by the rows of a
      page, rounded up; ZeroDivisionError for pages of zero rows, and the
      store's error for an unknown entity. */
  function CountPagesQuantity(db: Database, p: Pagination): (r: Result<int>)
    reads db
    ensures db.FetchRowsQuantity(p.entity).Err? ==> r == Err(db.FetchRowsQuantity(p.entity).error)
    ensures db.FetchRowsQuantity(p.entity).Ok? && p.rowsQuantityForPage == 0 ==> r == Err(ZeroDivision)
    ensures db.FetchRowsQuantity(p.entity).Ok? && p.rowsQuantityForPage > 0 ==>
              r.Ok? && r.value >= 0 &&
              (r.value - 1) * p.rowsQuantityForPage < db.FetchRowsQuantity(p.entity).value <= r.value * p.rowsQuantityForPage
    ensures db.FetchRowsQuantity(p.entity).Ok? && p.rowsQuantityForPage < 0 ==> r.Ok? && r.value <= 0
  {
    var rows :- db.FetchRowsQuantity(p.entity);
    if p.rowsQuantityForPage == 0 then Err(ZeroDivision)
    else Ok(CeilDiv(rows, p.rowsQuantityForPage))
  }

  /** The dictionary `pagination` returns to the template. */
  datatype PaginationData = PaginationData(
    firstPage: Option<int>,
    separatorAfterFirstPage: Option<string>,
    previousPageNumber: Option<int>,
    pageNumber: int,
    nextPageNumber: Option<int>,
    separatorBeforeLastPage: Option<string>,
    lastPage: Option<int>)

  /** The links shown around page `page` of `pages`. */
  function Links(page: int, pages: int): (d: PaginationData)
    ensures d.pageNumber == page
    ensures d.firstPage.Some? <==> page > 2
    ensures d.separatorAfterFirstPage.Some? <==> page > 3
    ensures d.previousPageNumber.Some? <==> page > 1
    ensures d.nextPageNumber.Some? <==> page < pages
    ensures d.lastPage.Some? <==> pages - page > 1
    ensures d.separatorBeforeLastPage.Some? <==> pages - page > 2
  {
    PaginationData(
      if page > 2 then Some(1) else None,
      if page > 3 then Some(DefaultPageNumbersSeparator) else None,
      if page > 1 then Some(page - 1) else None,
      page,
      if page < pages then Some(page + 1) else None,
      if pages - page > 2 then Some(DefaultPageNumbersSeparator) else None,
      if pages - page > 1 then Some(pages) else None)
  }

  /** The `pagination` property. */
  function PaginationOf(db: Database, p: Pagination): (r: Result<PaginationData>)
    reads db
    ensures r.Ok? <==> CountPagesQuantity(db, p).Ok?
    ensures r.Ok? ==> r.value == Links(p.pageNumber, CountPagesQuantity(db, p).value)
  {
    var pages :- CountPagesQuantity(db, p);
    Ok(Links(p.pageNumber, pages))
  }

  /** A separator is only shown next to the end link it separates, and on a
      page within range the links shown are distinct pages within range, in
      increasing order: first, previous, current, next, last. */
  lemma LinksAreOrdered(page: int, pages: int)
    requires 1 <= page <= pages
    ensures var d := Links(page, pages);
            && (d.separatorAfterFirstPage.Some? ==> d.firstPage.Some?)
            && (d.separatorBeforeLastPage.Some? ==> d.lastPage.Some?)
            && (d.firstPage.Some? ==> d.firstPage.value == 1 && d.previousPageNumber.Some? &&
                                      d.firstPage.value < d.previousPageNumber.value)
            && (d.previousPageNumber.Some? ==> 1 <= d.previousPageNumber.value < page)
            && (d.nextPageNumber.Some? ==> page < d.nextPageNumber.value <= pages)
            && (d.lastPage.Some? ==> d.lastPage.value == pages && d.nextPageNumber.Some? &&
                                     d.nextPageNumber.value < d.lastPage.value)
  {
  }

  lemma MulMonotone(a: int, b: int, q: int)
    requires a <= b && q > 0
    ensures a * q <= b * q
  {
  }

  /** Within the page count exactly the pages before the last have a page
      after them. */
  lemma BeforeLastIff(rows: nat, page: int, q: int)
    requires q > 0
    ensures page < CeilDiv(rows, q) <==> page * q < rows
  {
    var pages := CeilDiv(rows, q);
    if page < pages {
      MulMonotone(page, pages - 1, q);
    } else {
      MulMonotone(pages, page, q);
    }
  }

  /** The page count agrees with the store's paging: the next-page link is
      shown exactly when the next page has rows. */
  lemma NextLinkIffNextPageHasRows<T>(rows: seq<T>, page: int, rowsQuantity: int)
    requires page >= 1 && rowsQuantity > 0
    ensures Links(page, CeilDiv(|rows|, rowsQuantity)).nextPageNumber.Some? <==>
            Page(rows, page + 1, rowsQuantity).value != []
  {
    PageEmptyIff(rows, page + 1, rowsQuantity);
    assert Offset(page + 1, rowsQuantity) == page * rowsQuantity;
    BeforeLastIff(|rows|, page, rowsQuantity);
  }

  /** With rows at all, the last page counted is the last one with rows. */
  lemma LastCountedPageHasRows<T>(rows: seq<T>, rowsQuantity: int)
    requires |rows| > 0 && rowsQuantity > 0
    ensures CeilDiv(|rows|, rowsQuantity) >= 1
    ensures Page(rows, CeilDiv(|rows|, rowsQuantity), rowsQuantity).value != []
    ensures Page(rows, CeilDiv(|rows|, rowsQuantity) + 1, rowsQuantity).value == []
  {
    var pages := CeilDiv(|rows|, rowsQuantity);
    BeforeLastIff(|rows|, 0, rowsQuantity);
    BeforeLastIff(|rows|, pages - 1, rowsQuantity);
    BeforeLastIff(|rows|, pages, rowsQuantity);
    PageEmptyIff(rows, pages, rowsQuantity);
    PageEmptyIff(rows, pages + 1, rowsQuantity);
    assert Offset(pages, rowsQuantity) == (pages - 1) * rowsQuantity;
    assert Offset(pages + 1, rowsQuantity) == pages * rowsQuantity;
  }

  /** Counting at least the rows listed, a next page with rows lies
      within the page count. */
  lemma NextPageWithinCount<T>(rows: seq<T>, counted: nat, page: int, rowsQuantity: int)
    requires page >= 1 && rowsQuantity > 0 && |rows| <= counted
    requires Page(rows, page + 1, rowsQuantity).value != []
    ensures page < CeilDiv(counted, rowsQuantity)
  {
    PageEmptyIff(rows, page + 1, rowsQuantity);
    assert Offset(page + 1, rowsQuantity) == page * rowsQuantity;
    BeforeLastIff(counted, page, rowsQuantity);
  }

  /** The post list page and its pagination agree: with every post filed
      under an existing rubric, the next-page link is shown exactly when
      `fetch_all_posts` returns rows for the next page. */
  lemma PostListingNextLink(db: Database, page: int, rowsQuantity: int, matches: (string, PostRow) -> bool)
    requires db.Valid() && forall k :: k in db.posts ==> Database.PostJoinsRubric(db.posts[k], db.postRubrics)
    requires page >= 1 && rowsQuantity > 0
    ensures PaginationOf(db, Pagination(EntityStr("posts"), page, rowsQuantity)).Ok?
    ensures PaginationOf(db, Pagination(EntityStr("posts"), page, rowsQuantity)).value.nextPageNumber.Some? <==>
            db.FetchAllPosts(None, None, page + 1, rowsQuantity, None, matches).value != []
  {
    db.UnfilteredListingHoldsEveryPost(matches);
    NextLinkIffNextPageHasRows(db.SelectedPosts(None, None, None, matches), page, rowsQuantity);
  }

  /** `fetch_rows_quantity` counts every post, joined or not, so the page
      count never hides a page of the listing: whenever the next page of
      any filtered listing has rows, the next-page link is shown. */
  lemma PostPageCountCoversListing(db: Database, rubricId: Option<int>, searchWord: Option<string>, userId: Option<int>,
                                   page: int, rowsQuantity: int, matches: (string, PostRow) -> bool)
    requires db.Valid() && page >= 1 && rowsQuantity > 0
    requires db.FetchAllPosts(rubricId, searchWord, page + 1, rowsQuantity, userId, matches).value != []
    ensures PaginationOf(db, Pagination(EntityStr("posts"), page, rowsQuantity)).value.nextPageNumber.Some?
  {
    var rows := db.SelectedPosts(rubricId, searchWord, userId, matches);
    NextPageWithinCount(rows, |db.posts|, page, rowsQuantity);
  }

  /** The notes are counted over every user, so the page count of one
      user's notes never hides a page of that user's listing either. */
  lemma NotePageCountCoversListing(db: Database, userId: int, rubricId: Option<int>, searchWord: Option<string>,
                                   page: int, notesQuantity: int, matches: (string, NoteRow) -> bool)
    requires db.Valid() && page >= 1 && notesQuantity > 0
    requires db.FetchAllNotes(userId, rubricId, searchWord, page + 1, notesQuantity, matches).value != []
    ensures PaginationOf(db, Pagination(EntityStr("notes"), page, notesQuantity)).value.nextPageNumber.Some?
  {
    var rows := db.SelectedNotes(userId, rubricId, searchWord, matches, false);
    NextPageWithinCount(rows, |db.notes|, page, notesQuantity);
  }
}

=== FILE: params_handler.dfy ===
/** The request-parameter validator of core/views/validators.py.  A
    `ParamsHandler` walks the declared parameters in order, converts each
    raw value to its declared type and stores it under its new name if one
    is set.  A POST form must be complete and well typed; GET drops what is
    missing or malformed. */
module ParamsHandling {
  import opened Exceptions
  import opened PyConvert

  /** `Param(param_name, param_type, new_param_name=None)`. */
  datatype Param = Param(name: string, type_: ParamType, newName: Option<string>)

  /** The `http_method` argument: a string, or an object of another type
      whose `type()` prints as `typeRepr`. */
  datatype HttpMethodArg = MethodStr(s: string) | MethodNonStr(typeRepr: string)

  const Get := MethodStr("GET")
  const Post := MethodStr("POST")

  const NotAllReceivedMessage := "Not all expected parameters received. Form is invalid!"
  const NotAllCorrectTypeMessage := "Not all expected parameters have correct data type. Form is invalid!"
  const UnknownMethodMessage :=
    "Argument `http_method` may have only value that in possible arguments list. Check the function doc string!"

  function NonStrMethodMessage(typeRepr: string): string
  {
    "Argument `http_method` might be only str type. Not " + typeRepr
  }

  /** The key a converted value is stored under: `new_name` when it is
      truthy, else `name`. */
  function TargetName(p: Param): (k: string)
    ensures k == p.name || (p.newName.Some? && k == p.newName.value && k != "")
  {
    if p.newName.Some? && p.newName.value != "" then p.newName.value else p.name
  }

  /** `strict_availability_of_all_parameters`: False for GET, True for POST,
      ValueError for another string, TypeError for a non-string. */
  function StrictAvailability(m: HttpMethodArg): (r: Result<bool>)
    ensures r == Ok(false) <==> m == Get
    ensures r == Ok(true) <==> m == Post
    ensures m.MethodStr? && m != Get && m != Post ==> r == Err(ValueErr(UnknownMethodMessage))
    ensures m.MethodNonStr? ==> r == Err(TypeErr(NonStrMethodMessage(m.typeRepr)))
  {
    if m == Get then Ok(false)
    else if m == Post then Ok(true)
    else if m.MethodStr? then Err(ValueErr(UnknownMethodMessage))
    else Err(TypeErr(NonStrMethodMessage(m.typeRepr)))
  }

  /** `convert_param_type`: `type_(param)`, with its ValueError raised as
      InvalidParamValueError. */
  function ConvertParamType(param: string, t: ParamType): (r: Result<Value>)
    ensures r.Ok? <==> Convert(param, t).Some?
    ensures r.Ok? ==> r.value == Convert(param, t).value && TypeOf(r.value) == t
    ensures r.Err? ==> r.error == InvalidParamValue
  {
    match Convert(param, t)
    case Some(v) => Ok(v)
    case None => Err(InvalidParamValue)
  }

  /** Whether a declared parameter is present and converts. */
  predicate Acceptable(raw: map<string, string>, p: Param)
  {
    p.name in raw && Convert(raw[p.name], p.type_).Some?
  }

  /** One turn of the loop of `handle_params`.  The mode is consulted only
      when the parameter is missing or does not convert. */
  function Step(raw: map<string, string>, m: HttpMethodArg, acc: map<string, Value>, p: Param)
    : Result<map<string, Value>>
  {
    if p.name !in raw then
      var strict :- StrictAvailability(m);
      if strict then Err(InvalidForm(NotAllReceivedMessage)) else Ok(acc)
    else
      match ConvertParamType(raw[p.name], p.type_)
      case Ok(v) => Ok(acc[TargetName(p) := v])
      case Err(_) =>
        var strict :- StrictAvailability(m);
        if strict then Err(InvalidForm(NotAllCorrectTypeMessage)) else Ok(acc)
  }

  /** The result of `handle_params` over the declared parameters `decl`. */
  function Handled(raw: map<string, string>, decl: seq<Param>, m: HttpMethodArg): Result<map<string, Value>>
  {
    if |decl| == 0 then Ok(map[])
    else
      var acc :- Handled(raw, decl[..|decl| - 1], m);
      Step(raw, m, acc, decl[|decl| - 1])
  }

  /** An error raised for a prefix of the declared parameters ends the
      loop: it is the result for the whole sequence. */
  lemma {:induction false} ErrorEndsLoop(raw: map<string, string>, decl: seq<Param>, m: HttpMethodArg, j: int)
    requires 0 <= j <= |decl| && Handled(raw, decl[..j], m).Err?
    ensures Handled(raw, decl, m) == Handled(raw, decl[..j], m)
  {
    if j < |decl| {
      var prefix := decl[..|decl| - 1];
      assert prefix[..j] == decl[..j];
      ErrorEndsLoop(raw, prefix, m, j);
    } else {
      assert decl[..j] == decl;
    }
  }

  class ParamsHandler {
    /** The user's data, the declared parameters and the mode. */
    const params: map<string, string>
    const paramsForChecking: seq<Param>
    const httpMethod: HttpMethodArg

    constructor (params: map<string, string>, paramsForChecking: seq<Param>, httpMethod: HttpMethodArg)
      ensures this.params == params && this.paramsForChecking == paramsForChecking && this.httpMethod == httpMethod
    {
      this.params := params;
      this.paramsForChecking := paramsForChecking;
      this.httpMethod := httpMethod;
    }

    /** `handle_params`: build the validated parameters in declaration
        order, raising InvalidFormError at the first bad one in strict mode. */
    method HandleParams() returns (r: Result<map<string, Value>>)
      ensures r == Handled(params, paramsForChecking, httpMethod)
    {
      var result: map<string, Value> := map[];
      var i := 0;
      while i < |paramsForChecking|
        invariant 0 <= i <= |paramsForChecking|
        invariant Handled(params, paramsForChecking[..i], httpMethod) == Ok(result)
      {
        var param := paramsForChecking[i];
        assert paramsForChecking[..i + 1][..i] == paramsForChecking[..i];
        if param.name !in params {
          var strict := StrictAvailability(httpMethod);
          if strict.Err? || strict.value {
            ErrorEndsLoop(params, paramsForChecking, httpMethod, i + 1);
            return if strict.Err? then Err(strict.error) else Err(InvalidForm(NotAllReceivedMessage));
          }
        } else {
          var converted := ConvertParamType(params[param.name], param.type_);
          if converted.Err? {
            var strict := StrictAvailability(httpMethod);
            if strict.Err? || strict.value {
              ErrorEndsLoop(params, paramsForChecking, httpMethod, i + 1);
              return if strict.Err? then Err(strict.error) else Err(InvalidForm(NotAllCorrectTypeMessage));
            }
          } else {
            result := result[TargetName(param) := converted.value];
          }
        }
        i := i + 1;
      }
      assert paramsForChecking[..i] == paramsForChecking;
      r := Ok(result);
    }
  }

  // ------------------------------------------------------------------ properties

  /** In GET mode nothing raises: missing and malformed values are dropped. */
  lemma {:induction false} GetNeverRaises(raw: map<string, string>, decl: seq<Param>)
    ensures Handled(raw, decl, Get).Ok?
  {
    if |decl| > 0 {
      GetNeverRaises(raw, decl[..|decl| - 1]);
    }
  }

  /** Every key of the result is the target name of a declared parameter,
      and its value is that parameter's raw value converted to its type. */
  lemma {:induction false} HandledKeysAndValues(raw: map<string, string>, decl: seq<Param>, m: HttpMethodArg, k: string)
    requires Handled(raw, decl, m).Ok? && k in Handled(raw, decl, m).value
    ensures exists i :: 0 <= i < |decl| && TargetName(decl[i]) == k && Acceptable(raw, decl[i]) &&
                        Handled(raw, decl, m).value[k] == Convert(raw[decl[i].name], decl[i].type_).value
  {
    var n := |decl|;
    var prefix := decl[..n - 1];
    var acc := Handled(raw, prefix, m).value;
    var p := decl[n - 1];
    if p.name in raw && Convert(raw[p.name], p.type_).Some? && TargetName(p) == k {
      assert TargetName(decl[n - 1]) == k;
    } else {
      assert k in acc;
      HandledKeysAndValues(raw, prefix, m, k);
      var i :| 0 <= i < |prefix| && TargetName(prefix[i]) == k && Acceptable(raw, prefix[i]) &&
               acc[k] == Convert(raw[prefix[i].name], prefix[i].type_).value;
      assert decl[i] == prefix[i];
    }
  }

  /** A parameter that is present and converts always reaches the result
      under its target name, in every mode that returns. */
  lemma {:induction false} AcceptableIsKept(raw: map<string, string>, decl: seq<Param>, m: HttpMethodArg, j: int)
    requires Handled(raw, decl, m).Ok? && 0 <= j < |decl| && Acceptable(raw, decl[j])
    ensures TargetName(decl[j]) in Handled(raw, decl, m).value
  {
    var n := |decl|;
    var prefix := decl[..n - 1];
    if j < n - 1 {
      assert prefix[j] == decl[j];
      AcceptableIsKept(raw, prefix, m, j);
    }
  }

  /** POST succeeds exactly when every declared parameter is present and
      converts; otherwise it raises InvalidFormError with one of the two
      messages. */
  lemma {:induction false} PostIff(raw: map<string, string>, decl: seq<Param>)
    ensures Handled(raw, decl, Post).Ok? <==> forall i :: 0 <= i < |decl| ==> Acceptable(raw, decl[i])
    ensures Handled(raw, decl, Post).Err? ==>
              Handled(raw, decl, Post).error in {InvalidForm(NotAllReceivedMessage), InvalidForm(NotAllCorrectTypeMessage)}
  {
    if |decl| > 0 {
      var prefix := decl[..|decl| - 1];
      PostIff(raw, prefix);
      assert forall i :: 0 <= i < |prefix| ==> prefix[i] == decl[i];
    }
  }

  /** With complete, well-typed input the mode is never consulted: every
      mode, even an unknown string or a non-string, returns what GET returns. */
  lemma {:induction false} CompleteInputIgnoresMode(raw: map<string, string>, decl: seq<Param>, m: HttpMethodArg)
    requires forall i :: 0 <= i < |decl| ==> Acceptable(raw, decl[i])
    ensures Handled(raw, decl, m) == Handled(raw, decl, Get)
    ensures Handled(raw, decl, m).Ok?
  {
    if |decl| > 0 {
      var prefix := decl[..|decl| - 1];
      assert forall i :: 0 <= i < |prefix| ==> prefix[i] == decl[i];
      CompleteInputIgnoresMode(raw, prefix, m);
      GetNeverRaises(raw, prefix);
    }
  }

  // ------------------------------------------------------------------ declared parameter sets

  /** `UrlParams`: the query parameters of list pages, renamed to the
      keyword arguments of the fetch functions. */
  const UrlParams: seq<Param> := [
    Param("rubric", IntType, Some("rubric_id")),
    Param("page", IntType, Some("page_number")),
    Param("quantity", IntType, Some("rows_quantity")),
    Param("keyword", StrType, Some("search_word"))
  ]

  const FormPostRubric: seq<Param> := [Param("user_id", IntType, None), Param("title", StrType, None)]
  const FormPost: seq<Param> := [
    Param("user_id", IntType, None), Param("title", StrType, None),
    Param("content", StrType, None), Param("rubric_id", StrType, None)
  ]
  const FormNoteRubric: seq<Param> := [Param("user_id", IntType, None), Param("title", StrType, None)]
  const FormNote: seq<Param> := [
    Param("user_id", IntType, None), Param("title", StrType, None),
    Param("content", StrType, None), Param("rubric_id", IntType, None)
  ]
  const FormUser: seq<Param> := [Param("login", StrType, None), Param("password", StrType, None)]

  /** Validated list-page parameters carry only the four renamed keys. */
  lemma UrlParamsKeys(raw: map<string, string>, m: HttpMethodArg, k: string)
    requires Handled(raw, UrlParams, m).Ok? && k in Handled(raw, UrlParams, m).value
    ensures k in {"rubric_id", "page_number", "rows_quantity", "search_word"}
  {
    HandledKeysAndValues(raw, UrlParams, m, k);
  }
}

=== FILE: py_convert.dfy ===
/** The two conversions the parameter handlers apply to a raw request
    string, `type_(raw)` with `type_` one of `int` and `str`, and Python's
    `str()` of a converted value.  `int()` is modelled for ASCII input:
    surrounding whitespace, one optional sign, then decimal digits with
    single underscores allowed between them. */
module PyConvert {
  import opened Exceptions

  /** The `type_` of a declared parameter. */
  datatype ParamType = IntType | StrType

  /** A converted parameter value. */
  datatype Value = IntVal(i: int) | StrVal(s: string)

  predicate IsDigit(c: char) { '0' <= c <= '9' }

  /** The ASCII characters Python counts as whitespace, which both
      `str.strip()` and `int()` remove: tab, line feed, vertical tab, form
      feed, carriage return, the four separators 28 to 31, and space. */
  predicate IsSpace(c: char)
  {
    9 <= c as int <= 13 || 28 <= c as int <= 32
  }

  predicate AllDigits(s: string)
  {
    forall i :: 0 <= i < |s| ==> IsDigit(s[i])
  }

  /** The string with its leading whitespace removed. */
  function TrimLeft(s: string): (r: string)
    ensures |r| <= |s| && r == s[|s| - |r|..]
    ensures forall i :: 0 <= i < |s| - |r| ==> IsSpace(s[i])
    ensures |r| > 0 ==> !IsSpace(r[0])
  {
    if |s| > 0 && IsSpace(s[0]) then TrimLeft(s[1..]) else s
  }

  /** The string with its trailing whitespace removed. */
  function TrimRight(s: string): (r: string)
    ensures |r| <= |s| && r == s[..|r|]
    ensures forall i :: |r| <= i < |s| ==> IsSpace(s[i])
    ensures |r| > 0 ==> !IsSpace(r[|r| - 1])
  {
    if |s| > 0 && IsSpace(s[|s| - 1]) then TrimRight(s[..|s| - 1]) else s
  }

  function Strip(s: string): string
  {
    TrimRight(TrimLeft(s))
  }

  function DigitValue(c: char): nat
    requires IsDigit(c)
  {
    c as int - '0' as int
  }

  /** The digit part `int()` accepts: decimal digits, where a single
      underscore may separate two of them. */
  predicate IsDigitRun(s: string)
    decreases |s|
  {
    && |s| > 0 && IsDigit(s[|s| - 1])
    && (|| |s| == 1
        || IsDigitRun(s[..|s| - 1])
        || (|s| > 2 && s[|s| - 2] == '_' && IsDigitRun(s[..|s| - 2])))
  }

  /** The number a run of decimal digits denotes. */
  function DigitsValue(s: string): nat
    requires AllDigits(s)
  {
    if |s| == 0 then 0 else 10 * DigitsValue(s[..|s| - 1]) + DigitValue(s[|s| - 1])
  }

  /** The number a digit run denotes. */
  function DigitRunValue(d: string): nat
    requires IsDigitRun(d)
    decreases |d|
  {
    var last := DigitValue(d[|d| - 1]);
    if |d| == 1 then last
    else if d[|d| - 2] == '_' then
      assert d[..|d| - 1][|d| - 2] == '_' && !IsDigitRun(d[..|d| - 1]);
      10 * DigitRunValue(d[..|d| - 2]) + last
    else 10 * DigitRunValue(d[..|d| - 1]) + last
  }

  /** `int()` of a string already stripped of its surrounding whitespace. */
  function ParseStripped(t: string): Option<int>
  {
    if |t| > 0 && (t[0] == '-' || t[0] == '+') then
      var d := t[1..];
      if IsDigitRun(d) then Some(if t[0] == '-' then -(DigitRunValue(d) as int) else DigitRunValue(d))
      else None
    else if IsDigitRun(t) then Some(DigitRunValue(t))
    else None
  }

  /** `int(s)`: `None` where Python raises ValueError. */
  function ParseInt(s: string): Option<int>
  {
    ParseStripped(Strip(s))
  }

  function DigitChar(d: nat): (c: char)
    requires d < 10
    ensures IsDigit(c) && DigitValue(c) == d
  {
    ('0' as int + d) as char
  }

  /** `str(n)` of a natural number: its decimal digits, without leading zeros. */
  function NatToString(n: nat): (r: string)
    ensures |r| > 0 && AllDigits(r)
  {
    if n < 10 then [DigitChar(n)] else NatToString(n / 10) + [DigitChar(n % 10)]
  }

  /** `str(i)` of an integer. */
  function IntToString(i: int): string
  {
    if i < 0 then "-" + NatToString(-i) else NatToString(i)
  }

  /** `type_(raw)`: `None` where the conversion raises ValueError. */
  function Convert(raw: string, t: ParamType): Option<Value>
  {
    match t
    case StrType => Some(StrVal(raw))
    case IntType =>
      match ParseInt(raw)
      case Some(i) => Some(IntVal(i))
      case None => None
  }

  /** `str(v)` of a converted value. */
  function Str(v: Value): string
  {
    match v
    case IntVal(i) => IntToString(i)
    case StrVal(s) => s
  }

  function TypeOf(v: Value): ParamType
  {
    if v.IntVal? then IntType else StrType
  }

  lemma {:induction false} DigitsValueOfNatToString(n: nat)
    ensures DigitsValue(NatToString(n)) == n
  {
    if n >= 10 {
      var p := NatToString(n / 10);
      var s := p + [DigitChar(n % 10)];
      assert s[..|s| - 1] == p;
      DigitsValueOfNatToString(n / 10);
    }
  }

  lemma StripUnchanged(s: string)
    requires |s| > 0 && !IsSpace(s[0]) && !IsSpace(s[|s| - 1])
    ensures Strip(s) == s
  {
  }

  /** `int(str(i)) == i`: the decimal form of an integer parses back to it. */
  lemma {:induction false} ParseIntToString(i: int)
    ensures ParseInt(IntToString(i)) == Some(i)
  {
    var n: nat := if i < 0 then -i else i;
    var digits := NatToString(n);
    DigitsValueOfNatToString(n);
    ParseStrippedOfDigits(digits);
    var s := IntToString(i);
    assert s[|s| - 1] == digits[|digits| - 1];
    StripUnchanged(s);
  }

  /** Plain digits, with or without a minus sign, parse to their value. */
  lemma ParseStrippedOfDigits(digits: string)
    requires |digits| > 0 && AllDigits(digits)
    ensures ParseStripped(digits) == Some(DigitsValue(digits))
    ensures ParseStripped("-" + digits) == Some(-(DigitsValue(digits) as int))
  {
    DigitRunValueOfDigits(digits);
    var t := "-" + digits;
    assert t[0] == '-' && t[1..] == digits;
    assert !(digits[0] == '-' || digits[0] == '+');
  }

  /** Plain digits form a digit run that denotes their value. */
  lemma {:induction false} DigitRunValueOfDigits(digits: string)
    requires |digits| > 0 && AllDigits(digits)
    ensures IsDigitRun(digits) && DigitRunValue(digits) == DigitsValue(digits)
  {
    if |digits| > 1 {
      DigitRunValueOfDigits(digits[..|digits| - 1]);
    }
  }

  /** Converting `str(v)` back with the type of `v` gives `v` again. */
  lemma ConvertStrRoundTrip(v: Value)
    ensures Convert(Str(v), TypeOf(v)) == Some(v)
  {
    if v.IntVal? {
      ParseIntToString(v.i);
    }
  }

  /** `int()` accepts only whitespace, a sign, decimal digits and the
      underscores between them: a string with any other character, such as
      the point of "1.5", is refused rather than truncated. */
  lemma ParseIntAlphabet(s: string, k: nat)
    requires k < |s| && ParseInt(s).Some?
    ensures IsDigit(s[k]) || IsSpace(s[k]) || s[k] == '-' || s[k] == '+' || s[k] == '_'
  {
    var l := TrimLeft(s);
    var t := Strip(s);
    var off := |s| - |l|;
    if off <= k < off + |t| {
      assert s[k] == t[k - off];
      ParseStrippedAlphabet(t, k - off);
    } else if k >= off + |t| {
      assert s[k] == l[k - off];
    }
  }

  /** The alphabet of a stripped string `int()` accepts. */
  lemma ParseStrippedAlphabet(t: string, j: nat)
    requires j < |t| && ParseStripped(t).Some?
    ensures IsDigit(t[j]) || t[j] == '-' || t[j] == '+' || t[j] == '_'
  {
    if |t| > 0 && (t[0] == '-' || t[0] == '+') {
      if j > 0 {
        DigitRunAlphabet(t[1..], j - 1);
      }
    } else {
      DigitRunAlphabet(t, j);
    }
  }

  /** A digit run holds nothing but digits and underscores. */
  lemma {:induction false} DigitRunAlphabet(d: string, j: nat)
    requires IsDigitRun(d) && j < |d|
    ensures IsDigit(d[j]) || d[j] == '_'
  {
    if j < |d| - 1 {
      if IsDigitRun(d[..|d| - 1]) {
        DigitRunAlphabet(d[..|d| - 1], j);
      } else if j < |d| - 2 {
        DigitRunAlphabet(d[..|d| - 2], j);
      }
    }
  }

  /** An underscore between two digits is accepted and dropped:
      `int("1_0") == 10`. */
  lemma ParseIntUnderscore(a: char, b: char)
    requires IsDigit(a) && IsDigit(b)
    ensures ParseInt([a, '_', b]) == Some(10 * DigitValue(a) + DigitValue(b))
  {
    var s := [a, '_', b];
    StripUnchanged(s);
    assert s[..|s| - 2] == [a];
    assert IsDigitRun([a]) && DigitRunValue([a]) == DigitValue(a);
    assert IsDigitRun(s) && s[|s| - 2] == '_';
    assert DigitRunValue(s) == 10 * DigitRunValue([a]) + DigitValue(b);
    assert !(s[0] == '-' || s[0] == '+');
  }

  /** A doubled, leading or trailing underscore is refused. */
  lemma ParseIntMisplacedUnderscores(a: char, b: char)
    requires IsDigit(a) && IsDigit(b)
    ensures ParseInt([a, '_', '_', b]) == None
    ensures ParseInt(['_', a]) == None && ParseInt([a, '_']) == None
  {
    var doubled, leading, trailing := [a, '_', '_', b], ['_', a], [a, '_'];
    StripUnchanged(doubled);
    StripUnchanged(leading);
    StripUnchanged(trailing);
    if IsDigitRun(doubled) {
      DigitRunUnderscoreIsFollowedByDigit(doubled, 1);
    }
    if IsDigitRun(leading) {
      DigitRunStartsWithDigit(leading);
    }
  }

  /** No whitespace may follow the sign: `int("- 5")` raises. */
  lemma ParseIntSpaceAfterSign(a: char)
    requires IsDigit(a)
    ensures ParseInt(['-', ' ', a]) == None
  {
    var s := ['-', ' ', a];
    StripUnchanged(s);
    if IsDigitRun(s[1..]) {
      DigitRunAlphabet(s[1..], 0);
    }
  }

  /** The ASCII separators 28 to 31 are whitespace to `int()`:
      `int("\x1c5") == 5`. */
  lemma ParseIntSeparators(c: char, a: char)
    requires 28 <= c as int <= 31 && IsDigit(a)
    ensures ParseInt([c, a, c]) == Some(DigitValue(a))
  {
    var s := [c, a, c];
    assert TrimLeft(s) == [a, c] by {
      assert s[1..] == [a, c];
    }
    assert TrimRight([a, c]) == [a] by {
      assert [a, c][..1] == [a];
    }
  }

  /** A digit run starts with a digit. */
  lemma {:induction false} DigitRunStartsWithDigit(d: string)
    requires IsDigitRun(d)
    ensures IsDigit(d[0])
  {
    if |d| > 1 {
      if IsDigitRun(d[..|d| - 1]) {
        DigitRunStartsWithDigit(d[..|d| - 1]);
      } else {
        DigitRunStartsWithDigit(d[..|d| - 2]);
      }
    }
  }

  /** In a digit run every underscore is followed by a digit, so no two
      underscores are adjacent and none is last. */
  lemma {:induction false} DigitRunUnderscoreIsFollowedByDigit(d: string, k: nat)
    requires IsDigitRun(d) && k < |d| - 1 && d[k] == '_'
    ensures IsDigit(d[k + 1])
  {
    if k + 1 < |d| - 1 {
      if IsDigitRun(d[..|d| - 1]) {
        DigitRunUnderscoreIsFollowedByDigit(d[..|d| - 1], k);
      } else {
        var p := d[..|d| - 2];
        assert p[|p| - 1] == d[|d| - 3];
        DigitRunUnderscoreIsFollowedByDigit(p, k);
      }
    }
  }
}

=== FILE: redirects.dfy ===
/** The redirect builders of core/views/helpers.py and what a handler or a
    gate hands back to aiohttp.  Route resolution (`router[name].url_for`)
    is not modelled: a redirect by route name carries the name and the
    string parameters it would be resolved with. */
module Redirects {
  import opened Exceptions
  import opened PyConvert

  const FoundStatus := 302
  const SeeOtherStatus := 303

  datatype Location = Url(url: string) | Route(name: string, params: map<string, string>)

  /** An `HTTPFound` (302) or `HTTPSeeOther` (303) response. */
  datatype Redirect = Redirect(status: int, location: Location)

  /** What a view or a gate returns: the handler's own result, or a redirect. */
  datatype Reply<R> = Body(value: R) | Redirected(redirect: Redirect)

  /** `redirect_by_url`: 303 when the target is safe to fetch with GET
      after a POST, 302 otherwise. */
  function RedirectByUrl(url: string, isSafe: bool): (r: Redirect)
    ensures r.status == SeeOtherStatus <==> isSafe
    ensures r.status == FoundStatus <==> !isSafe
    ensures r.location == Url(url)
  {
    Redirect(if isSafe then SeeOtherStatus else FoundStatus, Url(url))
  }

  /** `redirect_by_route_name`: the same status choice, with every keyword
      argument turned into its string form for the URL builder. */
  function RedirectByRouteName(routeName: string, isSafe: bool, kwargs: map<string, Value>): (r: Redirect)
    ensures r.status == SeeOtherStatus <==> isSafe
    ensures r.status == FoundStatus <==> !isSafe
    ensures r.location.Route? && r.location.name == routeName
    ensures r.location.params.Keys == kwargs.Keys
    ensures forall k :: k in kwargs ==> r.location.params[k] == Str(kwargs[k])
  {
    Redirect(if isSafe then SeeOtherStatus else FoundStatus,
             Route(routeName, map k | k in kwargs :: Str(kwargs[k])))
  }

  /** The two builders agree on the status for the same `is_safe`. */
  lemma RedirectStatusAgrees(url: string, routeName: string, isSafe: bool, kwargs: map<string, Value>)
    ensures RedirectByUrl(url, isSafe).status == RedirectByRouteName(routeName, isSafe, kwargs).status
    ensures RedirectByUrl(url, isSafe).status in {FoundStatus, SeeOtherStatus}
  {
  }

  /** The string parameters of a route redirect convert back to the values
      they were made from, with the type each value had. */
  lemma RouteParamsRoundTrip(routeName: string, isSafe: bool, kwargs: map<string, Value>, k: string)
    requires k in kwargs
    ensures Convert(RedirectByRouteName(routeName, isSafe, kwargs).location.params[k], TypeOf(kwargs[k])) == Some(kwargs[k])
  {
    ConvertStrRoundTrip(kwargs[k]);
  }
}

=== FILE: security.dfy ===
/** The password hashing of core/security.py, kept opaque.  bcrypt itself is
    not modelled: a hasher is a pair of functions, and the one property the
    authorization code relies on is stated as the predicate `Sound`. */
module Security {

  /** `hash_password` (with the random salt as an argument) and
      `match_password_with_hash`. */
  datatype PasswordHasher = PasswordHasher(hash: (string, string) -> string, verify: (string, string) -> bool)
  {
    /** A password always matches a hash made from it, whatever the salt. */
    ghost predicate Sound()
    {
      forall password, salt :: verify(password, hash(password, salt))
    }
  }
}

=== FILE: sessions.dfy ===
/** The per-client session the handlers read and write through
    aiohttp_session: a dictionary with at most the keys `user` and `message`.
    Cookie encryption and storage are not modelled. */
module Sessions {
  import opened Exceptions
  import opened UserGroups

  /** `session['user']`: a `users` row without its password, and the
      `group` key that authorization adds. */
  datatype SessionUser = SessionUser(id: int, login: string, isAdmin: bool, isModerator: bool, group: Option<Group>)

  class Session {
    /** `session['user']`, absent when nobody is logged in. */
    var user: Option<SessionUser>
    /** `session['message']`, the pending alert. */
    var message: Option<string>

    /** An empty session, as `new_session` creates. */
    constructor ()
      ensures user == None && message == None
    {
      user := None;
      message := None;
    }

    /** `session.get('user', {}).get('group')`. */
    function UserGroup(): (g: Option<Group>)
      reads this
      ensures g.Some? <==> user.Some? && user.value.group.Some?
      ensures g.Some? ==> g.value == user.value.group.value
    {
      if user.Some? then user.value.group else None
    }

    /** `session.invalidate()`: every key is dropped. */
    method Invalidate()
      modifies this
      ensures user == None && message == None
    {
      user := None;
      message := None;
    }
  }
}

=== FILE: store.dfy ===
/** The CRUD collaborator of core/database/db.py over in-memory tables.
    Each table is a map from primary key to row with its AUTO_INCREMENT
    counter; SQL text, cursors and the connection pool are not modelled.
    A query without ORDER BY reads rows in ascending primary key. */
module Store {
  import opened Exceptions

  datatype UserRow = UserRow(id: int, login: string, password: string, isAdmin: bool, isModerator: bool)
  datatype PostRubricRow = PostRubricRow(id: int, title: string, userId: Option<int>)
  datatype PostRow = PostRow(id: int, title: string, content: string, userId: Option<int>, rubricId: Option<int>)
  datatype NoteRubricRow = NoteRubricRow(id: int, title: string, userId: int)
  datatype NoteRow = NoteRow(id: int, content: string, rubricId: Option<int>, userId: int)

  /** The `entity` argument of `fetch_rows_quantity`: a string or some other object. */
  datatype EntityArg = EntityStr(name: string) | EntityNonStr

  /** Jinja's `{% if x %}` on an optional integer or string argument. */
  predicate TruthyInt(o: Option<int>) { o.Some? && o.value != 0 }
  predicate TruthyStr(o: Option<string>) { o.Some? && o.value != "" }

  // ------------------------------------------------------------------ login collation

  /** The `users` table is created without COLLATE in a database whose
      character set is utf8, so its `login` and `password` columns compare
      under utf8_general_ci: the case of a letter does not matter and
      trailing spaces are ignored.  The model folds the ASCII letters. */
  function FoldCase(c: char): (d: char)
    ensures 'A' <= c <= 'Z' ==> 'a' <= d <= 'z' && d as int == c as int + 32
    ensures !('A' <= c <= 'Z') ==> d == c
  {
    if 'A' <= c <= 'Z' then (c as int + 32) as char else c
  }

  function FoldAll(s: string): (r: string)
    ensures |r| == |s|
    ensures forall i :: 0 <= i < |s| ==> r[i] == FoldCase(s[i])
  {
    if s == [] then [] else [FoldCase(s[0])] + FoldAll(s[1..])
  }

  /** The string without its trailing spaces (the PAD SPACE comparison). */
  function TrimTrailingSpaces(s: string): (r: string)
    ensures |r| <= |s| && r == s[..|r|]
    ensures forall i :: |r| <= i < |s| ==> s[i] == ' '
    ensures r == [] || r[|r| - 1] != ' '
  {
    if s != [] && s[|s| - 1] == ' ' then TrimTrailingSpaces(s[..|s| - 1]) else s
  }

  /** The value a login is compared by. */
  function CollationKey(s: string): (k: string)
    ensures |k| <= |s|
    ensures forall i :: 0 <= i < |k| ==> k[i] == FoldCase(s[i])
    ensures forall i :: |k| <= i < |s| ==> s[i] == ' '
    ensures k == [] || k[|k| - 1] != ' '
  {
    TrimTrailingSpaces(FoldAll(s))
  }

  /** `login = %s` and `password = %s` in the `users` table. */
  predicate SameCollated(a: string, b: string)
  {
    CollationKey(a) == CollationKey(b)
  }

  /** Two logins compare equal iff they agree letter by letter up to case,
      once the trailing spaces are dropped. */
  lemma SameCollatedIff(a: string, b: string)
    ensures SameCollated(a, b) <==>
              && |TrimTrailingSpaces(a)| == |TrimTrailingSpaces(b)|
              && forall i :: 0 <= i < |TrimTrailingSpaces(a)| ==> FoldCase(a[i]) == FoldCase(b[i])
  {
    var ka, kb := CollationKey(a), CollationKey(b);
    var ta, tb := TrimTrailingSpaces(a), TrimTrailingSpaces(b);
    KeyIsTrimmedLength(a);
    KeyIsTrimmedLength(b);
    if |ta| == |tb| && forall i :: 0 <= i < |ta| ==> FoldCase(a[i]) == FoldCase(b[i]) {
      assert forall i :: 0 <= i < |ka| ==> ka[i] == kb[i];
    }
  }

  /** Folding keeps spaces where they are, so the key is as long as the
      string without its trailing spaces. */
  lemma KeyIsTrimmedLength(s: string)
    ensures |CollationKey(s)| == |TrimTrailingSpaces(s)|
  {
  }

  /** A login with no upper-case ASCII letter and no trailing space is its
      own key, so the comparison differs from equality only through case
      and trailing spaces. */
  lemma KeyOfFoldedTrimmed(s: string)
    requires forall i :: 0 <= i < |s| ==> !('A' <= s[i] <= 'Z')
    requires s == [] || s[|s| - 1] != ' '
    ensures CollationKey(s) == s
  {
    KeyIsTrimmedLength(s);
  }

  /** "ALICE " names the same user as "alice". */
  lemma SameCollatedExample()
    ensures SameCollated("ALICE ", "alice")
    ensures !SameCollated("alice", "alicia")
  {
    SameCollatedIff("ALICE ", "alice");
    SameCollatedIff("alice", "alicia");
  }

  /** The statement `insert_post` hands to `execute_query`. */
  const InsertPostQuery :=
    "INSERT INTO `posts` (`title`, `content`, `user_id`, `post_rubric_id`) " +
    "VALUES (%(title)s, %(content)s, %(user_id)s, %(post_rubric_id)s);'"

  const FetchOneUserMissingArgument :=
    "fetch_one_user() missing (at least) 1 required keyword argument: ('user_id', 'login', 'password')"

  // ------------------------------------------------------------------ ordering and paging

  /** The rows of a table whose keys lie in `[lo, hi)`, in ascending key:
      a full table scan when `hi` is the table's AUTO_INCREMENT counter. */
  function Scan<T(==)>(m: map<int, T>, lo: int, hi: int): (r: seq<T>)
    ensures |r| <= if lo <= hi then hi - lo else 0
    ensures forall v :: v in r ==> v in m.Values
    ensures forall v :: v in r ==> exists k :: lo <= k < hi && k in m && m[k] == v
    ensures forall k :: lo <= k < hi && k in m ==> m[k] in r
    decreases hi - lo
  {
    if lo >= hi then []
    else (if lo in m then [m[lo]] else []) + Scan(m, lo + 1, hi)
  }

  /** The rows a WHERE clause keeps, in scan order. */
  function Filter<T(==,!new)>(s: seq<T>, keep: T -> bool): (r: seq<T>)
    ensures |r| <= |s|
    ensures forall v :: v in r <==> v in s && keep(v)
  {
    if s == [] then []
    else if keep(s[0]) then [s[0]] + Filter(s[1..], keep)
    else Filter(s[1..], keep)
  }

  /** What `fetchone()` returns: the first row kept, if any. */
  function First<T>(s: seq<T>, keep: T -> bool): (r: Option<T>)
    ensures r.Some? ==> r.value in s && keep(r.value)
    ensures r.None? <==> forall v :: v in s ==> !keep(v)
  {
    if s == [] then None
    else if keep(s[0]) then Some(s[0])
    else First(s[1..], keep)
  }

  /** A WHERE clause every row meets keeps the whole scan. */
  lemma {:induction false} FilterKeepsAll<T(!new)>(s: seq<T>, keep: T -> bool)
    requires forall v :: v in s ==> keep(v)
    ensures Filter(s, keep) == s
  {
    if s != [] {
      assert forall v :: v in s[1..] ==> v in s;
      FilterKeepsAll(s[1..], keep);
    }
  }

  /** A scan yields one row per key in its range. */
  lemma {:induction false} ScanCount<T>(m: map<int, T>, lo: int, hi: int)
    ensures |Scan(m, lo, hi)| == |set k | k in m && lo <= k < hi|
    decreases hi - lo
  {
    if lo < hi {
      ScanCount(m, lo + 1, hi);
      var here := if lo in m then {lo} else {};
      assert (set k | k in m && lo <= k < hi) == here + (set k | k in m && lo + 1 <= k < hi);
      assert here !! (set k | k in m && lo + 1 <= k < hi);
    } else {
      assert (set k | k in m && lo <= k < hi) == {};
    }
  }

  /** A scan over a range holding every key yields one row per key. */
  lemma ScanCoversTable<T>(m: map<int, T>, lo: int, hi: int)
    requires forall k :: k in m ==> lo <= k < hi
    ensures |Scan(m, lo, hi)| == |m|
  {
    ScanCount(m, lo, hi);
    assert (set k | k in m && lo <= k < hi) == m.Keys;
  }

  /** The offset both `fetch_all_posts` and `fetch_all_notes` put in LIMIT. */
  function Offset(pageNumber: int, rowsQuantity: int): int
  {
    (pageNumber - 1) * rowsQuantity
  }

  /** `LIMIT offset, count` over the rows of a query; MySQL refuses a
      negative offset or count. */
  function Limit<T>(rows: seq<T>, offset: int, count: int): (r: Result<seq<T>>)
    ensures r.Ok? <==> offset >= 0 && count >= 0
    ensures r.Ok? ==> |r.value| == if offset >= |rows| then 0
                                    else if offset + count <= |rows| then count
                                    else |rows| - offset
    ensures r.Ok? ==> forall i :: 0 <= i < |r.value| ==> r.value[i] == rows[offset + i]
  {
    if offset < 0 || count < 0 then Err(DatabaseError("You have an error in your SQL syntax"))
    else if offset >= |rows| then Ok([])
    else if offset + count >= |rows| then Ok(rows[offset..])
    else Ok(rows[offset..offset + count])
  }

  /** Page `pageNumber` of `rowsQuantity` rows each. */
  function Page<T>(rows: seq<T>, pageNumber: int, rowsQuantity: int): Result<seq<T>>
  {
    Limit(rows, Offset(pageNumber, rowsQuantity), rowsQuantity)
  }

  /** The first `k` pages, concatenated. */
  function Pages<T>(rows: seq<T>, rowsQuantity: nat, k: nat): seq<T>
  {
    if k == 0 then []
    else Pages(rows, rowsQuantity, k - 1) + Page(rows, k, rowsQuantity).value
  }

  /** Paging loses and repeats nothing: the first `k` pages are the first
      `k * rowsQuantity` rows. */
  lemma {:induction false} PagesArePrefix<T>(rows: seq<T>, rowsQuantity: nat, k: nat)
    ensures Pages(rows, rowsQuantity, k) ==
            rows[..if k * rowsQuantity <= |rows| then k * rowsQuantity else |rows|]
  {
    if k > 0 {
      PagesArePrefix(rows, rowsQuantity, k - 1);
      var lo := (k - 1) * rowsQuantity;
      var hi := k * rowsQuantity;
      assert lo + rowsQuantity == hi;
      assert 0 <= lo <= hi;
      var lo' := if lo <= |rows| then lo else |rows|;
      var hi' := if hi <= |rows| then hi else |rows|;
      assert Page(rows, k, rowsQuantity).value == rows[lo'..hi'];
      assert rows[..lo'] + rows[lo'..hi'] == rows[..hi'];
    }
  }

  /** A page is empty exactly when its offset is past the last row. */
  lemma PageEmptyIff<T>(rows: seq<T>, pageNumber: int, rowsQuantity: int)
    requires pageNumber >= 1 && rowsQuantity > 0
    ensures Page(rows, pageNumber, rowsQuantity).Ok?
    ensures Page(rows, pageNumber, rowsQuantity).value == [] <==> Offset(pageNumber, rowsQuantity) >= |rows|
  {
    assert Offset(pageNumber, rowsQuantity) >= 0 by {
      assert pageNumber - 1 >= 0;
    }
  }

  // ------------------------------------------------------------------ the database

  class Database {
    var users: map<int, UserRow>
    var postRubrics: map<int, PostRubricRow>
    var posts: map<int, PostRow>
    var noteRubrics: map<int, NoteRubricRow>
    var notes: map<int, NoteRow>
    var nextUserId: int
    var nextPostRubricId: int
    var nextPostId: int
    var nextNoteRubricId: int
    var nextNoteId: int

    /** Every row sits under its own primary key, keys are positive and
        below their table's AUTO_INCREMENT counter. */
    ghost predicate Valid()
      reads this
    {
      && (forall k :: k in users ==> users[k].id == k && 1 <= k < nextUserId)
      && (forall k :: k in postRubrics ==> postRubrics[k].id == k && 1 <= k < nextPostRubricId)
      && (forall k :: k in posts ==> posts[k].id == k && 1 <= k < nextPostId)
      && (forall k :: k in noteRubrics ==> noteRubrics[k].id == k && 1 <= k < nextNoteRubricId)
      && (forall k :: k in notes ==> notes[k].id == k && 1 <= k < nextNoteId)
      && nextUserId >= 1 && nextPostRubricId >= 1 && nextPostId >= 1
      && nextNoteRubricId >= 1 && nextNoteId >= 1
    }

    /** No two users share a login under the column's collation.  The
        `users` table has no UNIQUE key, so only registration's availability
        check keeps this. */
    ghost predicate LoginsUnique()
      reads this
    {
      forall a, b :: a in users && b in users && SameCollated(users[a].login, users[b].login) ==> a == b
    }

    constructor ()
      ensures Valid() && LoginsUnique()
      ensures users == map[] && postRubrics == map[] && posts == map[]
      ensures noteRubrics == map[] && notes == map[]
    {
      users, postRubrics, posts, noteRubrics, notes := map[], map[], map[], map[], map[];
      nextUserId, nextPostRubricId, nextPostId, nextNoteRubricId, nextNoteId := 1, 1, 1, 1, 1;
    }

    // -------------------------------------------------------------- reads

    /** `fetch_rows_quantity`: the row count of `posts` or `notes`. */
    function FetchRowsQuantity(entity: EntityArg): (r: Result<nat>)
      reads this
      ensures entity == EntityStr("posts") ==> r == Ok(|posts|)
      ensures entity == EntityStr("notes") ==> r == Ok(|notes|)
      ensures entity.EntityNonStr? ==> r == Err(TypeErr(""))
      ensures entity.EntityStr? && entity.name != "posts" && entity.name != "notes" ==> r == Err(ValueErr(""))
    {
      match entity
      case EntityStr(name) =>
        if name == "posts" then Ok(|posts|)
        else if name == "notes" then Ok(|notes|)
        else Err(ValueErr(""))
      case EntityNonStr => Err(TypeErr(""))
    }

    /** The WHERE clause of `fetch_all_posts`: only truthy filters apply. */
    static predicate PostSelected(rubricId: Option<int>, searchWord: Option<string>, userId: Option<int>,
                                  matches: (string, PostRow) -> bool, p: PostRow)
    {
      && (TruthyInt(rubricId) ==> p.rubricId == rubricId)
      && (TruthyStr(searchWord) ==> matches(searchWord.value, p))
      && (TruthyInt(userId) ==> p.userId == userId)
    }

    /** The INNER JOIN of `posts` with `post_rubrics` on the post's rubric:
        a post whose rubric is NULL or missing is never read. */
    static predicate PostJoinsRubric(p: PostRow, rubrics: map<int, PostRubricRow>)
    {
      p.rubricId.Some? && p.rubricId.value in rubrics
    }

    /** The rows the query of `fetch_all_posts` selects before its LIMIT,
        in scan order.  The full-text MATCH ... AGAINST test is the
        parameter `matches`. */
    function SelectedPosts(rubricId: Option<int>, searchWord: Option<string>, userId: Option<int>,
                           matches: (string, PostRow) -> bool): (r: seq<PostRow>)
      reads this
      requires Valid()
      ensures |r| <= |posts|
      ensures forall p :: p in r ==>
                p.id in posts && posts[p.id] == p &&
                PostJoinsRubric(p, postRubrics) && PostSelected(rubricId, searchWord, userId, matches, p)
      ensures forall k :: (k in posts && PostJoinsRubric(posts[k], postRubrics) &&
                           PostSelected(rubricId, searchWord, userId, matches, posts[k])) ==> posts[k] in r
    {
      var rubrics := postRubrics;
      var rows := Scan(posts, 1, nextPostId);
      ScanCoversTable(posts, 1, nextPostId);
      Filter(rows, p => PostJoinsRubric(p, rubrics) && PostSelected(rubricId, searchWord, userId, matches, p))
    }

    /** `fetch_all_posts`: page `pageNumber` of the selected posts, at
        offset `(pageNumber - 1) * rowsQuantity`; MySQL refuses a negative
        offset or count. */
    function FetchAllPosts(rubricId: Option<int>, searchWord: Option<string>, pageNumber: int, rowsQuantity: int,
                           userId: Option<int>, matches: (string, PostRow) -> bool): (r: Result<seq<PostRow>>)
      reads this
      requires Valid()
      ensures r == Page(SelectedPosts(rubricId, searchWord, userId, matches), pageNumber, rowsQuantity)
      ensures r.Ok? <==> Offset(pageNumber, rowsQuantity) >= 0 && rowsQuantity >= 0
      ensures r.Ok? ==> |r.value| <= rowsQuantity
      ensures r.Ok? ==> forall p :: p in r.value ==>
                p.id in posts && posts[p.id] == p &&
                PostJoinsRubric(p, postRubrics) && PostSelected(rubricId, searchWord, userId, matches, p)
    {
      var selected := SelectedPosts(rubricId, searchWord, userId, matches);
      var r := Page(selected, pageNumber, rowsQuantity);
      assert r.Ok? ==> forall p :: p in r.value ==> p in selected by {
        if r.Ok? {
          var off := Offset(pageNumber, rowsQuantity);
          forall p | p in r.value ensures p in selected {
            var i :| 0 <= i < |r.value| && r.value[i] == p;
            assert selected[off + i] == p;
          }
        }
      }
      r
    }

    /** Without a truthy filter, and with every post filed under an existing
        rubric, the listing holds every post: as many rows as
        `fetch_rows_quantity` counts. */
    lemma UnfilteredListingHoldsEveryPost(matches: (string, PostRow) -> bool)
      requires Valid() && forall k :: k in posts ==> PostJoinsRubric(posts[k], postRubrics)
      ensures |SelectedPosts(None, None, None, matches)| == |posts|
      ensures FetchRowsQuantity(EntityStr("posts")) == Ok(|SelectedPosts(None, None, None, matches)|)
    {
      var rubrics := postRubrics;
      var rows := Scan(posts, 1, nextPostId);
      var keep := p => PostJoinsRubric(p, rubrics) && PostSelected(None, None, None, matches, p);
      forall v | v in rows ensures keep(v) {
        var k :| 1 <= k < nextPostId && k in posts && posts[k] == v;
      }
      FilterKeepsAll(rows, keep);
      ScanCoversTable(posts, 1, nextPostId);
    }

    /** `fetch_one_post`: the post, or RecordNotFoundError when there is
        none or when its rubric is NULL or missing. */
    function FetchOnePost(postId: int): (r: Result<PostRow>)
      reads this
      requires Valid()
      ensures r.Ok? <==> postId in posts && PostJoinsRubric(posts[postId], postRubrics)
      ensures r.Ok? ==> r.value == posts[postId] && r.value.id == postId
      ensures r.Err? ==> r.error == RecordNotFound
    {
      if postId in posts && PostJoinsRubric(posts[postId], postRubrics) then Ok(posts[postId])
      else Err(RecordNotFound)
    }

    /** `fetch_one_random_post`: None when no post joins a rubric, otherwise
        the joined row the random ORDER BY puts first, chosen here by `pick`. */
    function FetchOneRandomPost(pick: nat): (r: Option<PostRow>)
      reads this
      requires Valid()
      ensures r.None? <==> forall k :: k in posts ==> !PostJoinsRubric(posts[k], postRubrics)
      ensures r.Some? ==> r.value.id in posts && posts[r.value.id] == r.value && PostJoinsRubric(r.value, postRubrics)
    {
      var rubrics := postRubrics;
      var rows := Filter(Scan(posts, 1, nextPostId), p => PostJoinsRubric(p, rubrics));
      assert (exists k :: k in posts && PostJoinsRubric(posts[k], postRubrics)) ==> |rows| > 0 by {
        if k :| k in posts && PostJoinsRubric(posts[k], postRubrics) {
          assert posts[k] in rows;
        }
      }
      if |rows| == 0 then None
      else
        var p := rows[pick % |rows|];
        assert p in rows;
        Some(p)
    }

    static predicate NoteSelected(userId: int, rubricId: Option<int>, searchWord: Option<string>,
                                  matches: (string, NoteRow) -> bool, n: NoteRow)
    {
      && n.userId == userId
      && (TruthyInt(rubricId) ==> n.rubricId == rubricId)
      && (TruthyStr(searchWord) ==> matches(searchWord.value, n))
    }

    /** The INNER JOIN `fetch_all_notes` and `fetch_one_note` write: on
        `notes.id = note_rubrics.id`, the note's own id. */
    static predicate NoteJoinsAsWritten(n: NoteRow, rubrics: map<int, NoteRubricRow>)
    {
      n.id in rubrics
    }

    /** The join evidently intended: on the note's rubric, as the post
        queries join a post to its rubric. */
    static predicate NoteJoinsRubric(n: NoteRow, rubrics: map<int, NoteRubricRow>)
    {
      n.rubricId.Some? && n.rubricId.value in rubrics
    }

    static predicate NoteJoins(n: NoteRow, rubrics: map<int, NoteRubricRow>, asWritten: bool)
    {
      if asWritten then NoteJoinsAsWritten(n, rubrics) else NoteJoinsRubric(n, rubrics)
    }

    /** The rows the query of `fetch_all_notes` selects before its LIMIT, in
        scan order, under the join as written or as intended. */
    function SelectedNotes(userId: int, rubricId: Option<int>, searchWord: Option<string>,
                           matches: (string, NoteRow) -> bool, asWritten: bool): (r: seq<NoteRow>)
      reads this
      requires Valid()
      ensures |r| <= |notes|
      ensures forall n :: n in r ==>
                n.id in notes && notes[n.id] == n &&
                NoteJoins(n, noteRubrics, asWritten) && NoteSelected(userId, rubricId, searchWord, matches, n)
      ensures forall k :: (k in notes && NoteJoins(notes[k], noteRubrics, asWritten) &&
                           NoteSelected(userId, rubricId, searchWord, matches, notes[k])) ==> notes[k] in r
    {
      var rubrics := noteRubrics;
      var rows := Scan(notes, 1, nextNoteId);
      ScanCoversTable(notes, 1, nextNoteId);
      Filter(rows, n => NoteJoins(n, rubrics, asWritten) && NoteSelected(userId, rubricId, searchWord, matches, n))
    }

    /** Page `pageNumber` of one user's selected notes. */
    function NotesPage(userId: int, rubricId: Option<int>, searchWord: Option<string>, pageNumber: int,
                       notesQuantity: int, matches: (string, NoteRow) -> bool, asWritten: bool): (r: Result<seq<NoteRow>>)
      reads this
      requires Valid()
      ensures r == Page(SelectedNotes(userId, rubricId, searchWord, matches, asWritten), pageNumber, notesQuantity)
      ensures r.Ok? <==> Offset(pageNumber, notesQuantity) >= 0 && notesQuantity >= 0
      ensures r.Ok? ==> |r.value| <= notesQuantity
      ensures r.Ok? ==> forall n :: n in r.value ==>
                n.id in notes && notes[n.id] == n &&
                NoteJoins(n, noteRubrics, asWritten) && NoteSelected(userId, rubricId, searchWord, matches, n)
    {
      var selected := SelectedNotes(userId, rubricId, searchWord, matches, asWritten);
      var r := Page(selected, pageNumber, notesQuantity);
      assert r.Ok? ==> forall n :: n in r.value ==> n in selected by {
        if r.Ok? {
          var off := Offset(pageNumber, notesQuantity);
          forall n | n in r.value ensures n in selected {
            var i :| 0 <= i < |r.value| && r.value[i] == n;
            assert selected[off + i] == n;
          }
        }
      }
      r
    }

    /** `fetch_all_notes` as written: joined on the note's own id. */
    function FetchAllNotesAsWritten(userId: int, rubricId: Option<int>, searchWord: Option<string>, pageNumber: int,
                                    notesQuantity: int, matches: (string, NoteRow) -> bool): (r: Result<seq<NoteRow>>)
      reads this
      requires Valid()
      ensures r.Ok? ==> forall n :: n in r.value ==> n.id in noteRubrics && NoteSelected(userId, rubricId, searchWord, matches, n)
    {
      NotesPage(userId, rubricId, searchWord, pageNumber, notesQuantity, matches, true)
    }

    /** `fetch_all_notes` with the intended join: page `pageNumber` of one
        user's selected notes, at offset `(pageNumber - 1) * notesQuantity`. */
    function FetchAllNotes(userId: int, rubricId: Option<int>, searchWord: Option<string>, pageNumber: int,
                           notesQuantity: int, matches: (string, NoteRow) -> bool): (r: Result<seq<NoteRow>>)
      reads this
      requires Valid()
      ensures r == Page(SelectedNotes(userId, rubricId, searchWord, matches, false), pageNumber, notesQuantity)
      ensures r.Ok? <==> Offset(pageNumber, notesQuantity) >= 0 && notesQuantity >= 0
      ensures r.Ok? ==> |r.value| <= notesQuantity
      ensures r.Ok? ==> forall n :: n in r.value ==>
                n.id in notes && notes[n.id] == n &&
                NoteJoinsRubric(n, noteRubrics) && NoteSelected(userId, rubricId, searchWord, matches, n)
    {
      NotesPage(userId, rubricId, searchWord, pageNumber, notesQuantity, matches, false)
    }

    /** `fetch_one_note` as written: found only when a note rubric carries
        the note's own id. */
    function FetchOneNoteAsWritten(noteId: int): (r: Result<NoteRow>)
      reads this
      requires Valid()
      ensures r.Ok? <==> noteId in notes && noteId in noteRubrics
      ensures r.Ok? ==> r.value == notes[noteId] && r.value.id == noteId
      ensures r.Err? ==> r.error == RecordNotFound
    {
      if noteId in notes && NoteJoinsAsWritten(notes[noteId], noteRubrics) then Ok(notes[noteId])
      else Err(RecordNotFound)
    }

    /** `fetch_one_note` with the intended join: the note, or
        RecordNotFoundError when there is none or its rubric is NULL or
        missing. */
    function FetchOneNote(noteId: int): (r: Result<NoteRow>)
      reads this
      requires Valid()
      ensures r.Ok? <==> noteId in notes && NoteJoinsRubric(notes[noteId], noteRubrics)
      ensures r.Ok? ==> r.value == notes[noteId] && r.value.id == noteId
      ensures r.Err? ==> r.error == RecordNotFound
    {
      if noteId in notes && NoteJoinsRubric(notes[noteId], noteRubrics) then Ok(notes[noteId])
      else Err(RecordNotFound)
    }

    /** As written, a note filed under an existing rubric is not found when
        no note rubric happens to have the note's id. */
    lemma NoteJoinAsWrittenLosesFiledNote(noteId: int)
      requires Valid() && noteId in notes && NoteJoinsRubric(notes[noteId], noteRubrics) && noteId !in noteRubrics
      ensures FetchOneNoteAsWritten(noteId) == Err(RecordNotFound)
      ensures FetchOneNote(noteId) == Ok(notes[noteId])
      ensures notes[noteId] !in SelectedNotes(notes[noteId].userId, None, None, (w, n) => true, true)
      ensures notes[noteId] in SelectedNotes(notes[noteId].userId, None, None, (w, n) => true, false)
    {
    }

    /** As written, a note without a rubric is found whenever a note rubric
        happens to have the note's id. */
    lemma NoteJoinAsWrittenFindsUnfiledNote(noteId: int)
      requires Valid() && noteId in notes && notes[noteId].rubricId.None? && noteId in noteRubrics
      ensures FetchOneNoteAsWritten(noteId) == Ok(notes[noteId])
      ensures FetchOneNote(noteId) == Err(RecordNotFound)
    {
    }

    /** The note-rubric lookup the ownership check calls. */
    function FetchOneNoteRubric(noteRubricId: int): (r: Result<NoteRubricRow>)
      reads this
      requires Valid()
      ensures r.Ok? <==> noteRubricId in noteRubrics
      ensures r.Ok? ==> r.value == noteRubrics[noteRubricId] && r.value.id == noteRubricId
      ensures r.Err? ==> r.error == RecordNotFound
    {
      if noteRubricId in noteRubrics then Ok(noteRubrics[noteRubricId]) else Err(RecordNotFound)
    }

    /** The WHERE clause of `fetch_one_user`: the truthy filters, conjunctively. */
    static predicate UserSelected(userId: Option<int>, login: Option<string>, password: Option<string>, u: UserRow)
    {
      && (TruthyInt(userId) ==> u.id == userId.value)
      && (TruthyStr(login) ==> SameCollated(u.login, login.value))
      && (TruthyStr(password) ==> SameCollated(u.password, password.value))
    }

    /** `fetch_one_user`: TypeError when no filter is truthy, otherwise the
        first user meeting every truthy filter, or RecordNotFoundError. */
    function FetchOneUser(userId: Option<int>, login: Option<string>, password: Option<string>): (r: Result<UserRow>)
      reads this
      requires Valid()
      ensures !(TruthyInt(userId) || TruthyStr(login) || TruthyStr(password)) <==> r == Err(TypeErr(FetchOneUserMissingArgument))
      ensures r.Ok? ==> r.value in users.Values && UserSelected(userId, login, password, r.value)
      ensures r.Ok? ==> r.value.id in users && users[r.value.id] == r.value
      ensures r == Err(RecordNotFound) <==>
                (TruthyInt(userId) || TruthyStr(login) || TruthyStr(password)) &&
                forall u :: u in users.Values ==> !UserSelected(userId, login, password, u)
    {
      if !(TruthyInt(userId) || TruthyStr(login) || TruthyStr(password)) then
        Err(TypeErr(FetchOneUserMissingArgument))
      else
        match First(Scan(users, 1, nextUserId), u => UserSelected(userId, login, password, u))
        case Some(u) => Ok(u)
        case None => Err(RecordNotFound)
    }

    /** `execute_query` as written: `cursor.execute(query, params)` is called
        without `await`, so the coroutine never runs, no statement reaches
        the server and no table changes.  Every insert, update and delete
        below goes through it; each of them models the statement's intended
        effect. */
    method ExecuteQueryAsWritten(query: string)
      ensures unchanged(this)
    {
    }

    /** `insert_post` as written: the statement goes through the as-written
        `execute_query`, so the table is left as it was. */
    method InsertPostAsWritten(userId: int, title: string, content: string, rubricId: Option<int>)
      ensures unchanged(this)
    {
      ExecuteQueryAsWritten(InsertPostQuery);
    }

    // -------------------------------------------------------------- inserts

    method InsertUser(login: string, password: string)
      requires Valid()
      modifies this`users, this`nextUserId
      ensures Valid()
      ensures old(nextUserId) !in old(users)
      ensures users == old(users)[old(nextUserId) := UserRow(old(nextUserId), login, password, false, false)]
      ensures nextUserId == old(nextUserId) + 1
    {
      var id := nextUserId;
      users := users[id := UserRow(id, login, password, false, false)];
      nextUserId := id + 1;
    }

    method InsertPostRubric(userId: int, title: string)
      requires Valid()
      modifies this`postRubrics, this`nextPostRubricId
      ensures Valid()
      ensures old(nextPostRubricId) !in old(postRubrics)
      ensures postRubrics == old(postRubrics)[old(nextPostRubricId) :=
                PostRubricRow(old(nextPostRubricId), title, Some(userId))]
      ensures nextPostRubricId == old(nextPostRubricId) + 1
    {
      var id := nextPostRubricId;
      postRubrics := postRubrics[id := PostRubricRow(id, title, Some(userId))];
      nextPostRubricId := id + 1;
    }

    method InsertPost(userId: int, title: string, content: string, rubricId: Option<int>)
      requires Valid()
      modifies this`posts, this`nextPostId
      ensures Valid()
      ensures old(nextPostId) !in old(posts)
      ensures posts == old(posts)[old(nextPostId) := PostRow(old(nextPostId), title, content, Some(userId), rubricId)]
      ensures nextPostId == old(nextPostId) + 1
    {
      var id := nextPostId;
      posts := posts[id := PostRow(id, title, content, Some(userId), rubricId)];
      nextPostId := id + 1;
    }

    method InsertNoteRubric(userId: int, title: string)
      requires Valid()
      modifies this`noteRubrics, this`nextNoteRubricId
      ensures Valid()
      ensures old(nextNoteRubricId) !in old(noteRubrics)
      ensures noteRubrics == old(noteRubrics)[old(nextNoteRubricId) :=
                NoteRubricRow(old(nextNoteRubricId), title, userId)]
      ensures nextNoteRubricId == old(nextNoteRubricId) + 1
    {
      var id := nextNoteRubricId;
      noteRubrics := noteRubrics[id := NoteRubricRow(id, title, userId)];
      nextNoteRubricId := id + 1;
    }

    method InsertNote(userId: int, content: string, rubricId: Option<int>)
      requires Valid()
      modifies this`notes, this`nextNoteId
      ensures Valid()
      ensures old(nextNoteId) !in old(notes)
      ensures notes == old(notes)[old(nextNoteId) := NoteRow(old(nextNoteId), content, rubricId, userId)]
      ensures nextNoteId == old(nextNoteId) + 1
    {
      var id := nextNoteId;
      notes := notes[id := NoteRow(id, content, rubricId, userId)];
      nextNoteId := id + 1;
    }

    // -------------------------------------------------------------- updates (no row matched: nothing changes)

    method UpdatePostRubric(postRubricId: int, title: string)
      requires Valid()
      modifies this`postRubrics
      ensures Valid()
      ensures postRubrics == if postRubricId in old(postRubrics)
                             then old(postRubrics)[postRubricId := old(postRubrics)[postRubricId].(title := title)]
                             else old(postRubrics)
    {
      if postRubricId in postRubrics {
        postRubrics := postRubrics[postRubricId := postRubrics[postRubricId].(title := title)];
      }
    }

    method UpdatePost(postId: int, title: string, content: string, rubricId: Option<int>)
      requires Valid()
      modifies this`posts
      ensures Valid()
      ensures posts == if postId in old(posts)
                       then old(posts)[postId := old(posts)[postId].(title := title, content := content, rubricId := rubricId)]
                       else old(posts)
    {
      if postId in posts {
        posts := posts[postId := posts[postId].(title := title, content := content, rubricId := rubricId)];
      }
    }

    method UpdateNoteRubric(noteRubricId: int, title: string)
      requires Valid()
      modifies this`noteRubrics
      ensures Valid()
      ensures noteRubrics == if noteRubricId in old(noteRubrics)
                             then old(noteRubrics)[noteRubricId := old(noteRubrics)[noteRubricId].(title := title)]
                             else old(noteRubrics)
    {
      if noteRubricId in noteRubrics {
        noteRubrics := noteRubrics[noteRubricId := noteRubrics[noteRubricId].(title := title)];
      }
    }

    method UpdateNote(noteId: int, content: string, rubricId: Option<int>)
      requires Valid()
      modifies this`notes
      ensures Valid()
      ensures notes == if noteId in old(notes)
                       then old(notes)[noteId := old(notes)[noteId].(content := content, rubricId := rubricId)]
                       else old(notes)
    {
      if noteId in notes {
        notes := notes[noteId := notes[noteId].(content := content, rubricId := rubricId)];
      }
    }

    method UpdateUser(userId: int, login: string, password: string)
      requires Valid()
      modifies this`users
      ensures Valid()
      ensures users == if userId in old(users)
                       then old(users)[userId := old(users)[userId].(login := login, password := password)]
                       else old(users)
    {
      if userId in users {
        users := users[userId := users[userId].(login := login, password := password)];
      }
    }

    /** `make_user_moderator` and `make_moderator_simple_user`: set or clear
        the moderator flag. */
    method SetModerator(userId: int, isModerator: bool)
      requires Valid()
      modifies this`users
      ensures Valid()
      ensures users == if userId in old(users)
                       then old(users)[userId := old(users)[userId].(isModerator := isModerator)]
                       else old(users)
    {
      if userId in users {
        users := users[userId := users[userId].(isModerator := isModerator)];
      }
    }

    // -------------------------------------------------------------- deletes (foreign-key actions are the server's)

    method DeletePostRubric(postRubricId: int)
      requires Valid()
      modifies this`postRubrics
      ensures Valid() && postRubrics == old(postRubrics) - {postRubricId}
    {
      postRubrics := postRubrics - {postRubricId};
    }

    method DeletePost(postId: int)
      requires Valid()
      modifies this`posts
      ensures Valid() && posts == old(posts) - {postId}
    {
      posts := posts - {postId};
    }

    method DeleteNoteRubric(noteRubricId: int)
      requires Valid()
      modifies this`noteRubrics
      ensures Valid() && noteRubrics == old(noteRubrics) - {noteRubricId}
    {
      noteRubrics := noteRubrics - {noteRubricId};
    }

    method DeleteNote(noteId: int)
      requires Valid()
      modifies this`notes
      ensures Valid() && notes == old(notes) - {noteId}
    {
      notes := notes - {noteId};
    }

    method DeleteUser(userId: int)
      requires Valid()
      modifies this`users
      ensures Valid() && users == old(users) - {userId}
    {
      users := users - {userId};
    }
  }

  /** `insert_post` on an empty store: as written the post never reaches
      the table, so `fetch_rows_quantity('posts')` still counts none; with
      the statement executed it counts one. */
  method InsertedPostIsLostAsWritten(userId: int, title: string, content: string, rubricId: Option<int>)
    returns (asWritten: Result<nat>, intended: Result<nat>)
    ensures asWritten == Ok(0) && intended == Ok(1)
  {
    var db := new Database();
    db.InsertPostAsWritten(userId, title, content, rubricId);
    asWritten := db.FetchRowsQuantity(EntityStr("posts"));
    db.InsertPost(userId, title, content, rubricId);
    intended := db.FetchRowsQuantity(EntityStr("posts"));
  }
}

=== FILE: url_params.dfy ===
/** The query-string handler of core/utils.py.  Unlike the form validator it
    has no strict mode: a missing parameter is skipped and one that does not
    convert is only logged, so handling never raises. */
module UrlParamsHandling {
  import opened Exceptions
  import opened PyConvert
  import ParamsHandling

  /** `UrlParam(param_name, param_type, new_param_name='')`. */
  datatype UrlParam = UrlParam(name: string, type_: ParamType, newName: string)

  /** `convert_param_type`: `type_(param)`, with its ValueError raised as
      InvalidParameterTypeError. */
  function ConvertParamType(param: string, t: ParamType): (r: Result<Value>)
    ensures r.Ok? <==> Convert(param, t).Some?
    ensures r.Ok? ==> r.value == Convert(param, t).value && TypeOf(r.value) == t
    ensures r.Err? ==> r.error == InvalidParameterType
  {
    match Convert(param, t)
    case Some(v) => Ok(v)
    case None => Err(InvalidParameterType)
  }

  /** The key a converted value is stored under. */
  function TargetName(p: UrlParam): string
  {
    if p.newName != "" then p.newName else p.name
  }

  /** The result of `handle_url_params` over the declared parameters `decl`. */
  function UrlHandled(query: map<string, string>, decl: seq<UrlParam>): map<string, Value>
  {
    if |decl| == 0 then map[]
    else
      var acc := UrlHandled(query, decl[..|decl| - 1]);
      var p := decl[|decl| - 1];
      if p.name !in query then acc
      else
        match ConvertParamType(query[p.name], p.type_)
        case Ok(v) => acc[TargetName(p) := v]
        case Err(_) => acc
  }

  class UrlParamsHandler {
    /** `request.rel_url.query` and the declared parameters. */
    const requestUrlParams: map<string, string>
    const urlParamsForChecking: seq<UrlParam>
    /** The handled parameters, computed once by the constructor. */
    var params: map<string, Value>

    constructor (requestUrlParams: map<string, string>, urlParamsForChecking: seq<UrlParam>)
      ensures this.requestUrlParams == requestUrlParams && this.urlParamsForChecking == urlParamsForChecking
      ensures params == UrlHandled(requestUrlParams, urlParamsForChecking)
    {
      this.requestUrlParams := requestUrlParams;
      this.urlParamsForChecking := urlParamsForChecking;
      new;
      params := HandleUrlParams();
    }

    /** `handle_url_params`: convert the declared parameters that are present
        and well typed, in declaration order. */
    method HandleUrlParams() returns (result: map<string, Value>)
      ensures result == UrlHandled(requestUrlParams, urlParamsForChecking)
    {
      result := map[];
      var i := 0;
      while i < |urlParamsForChecking|
        invariant 0 <= i <= |urlParamsForChecking|
        invariant UrlHandled(requestUrlParams, urlParamsForChecking[..i]) == result
      {
        var urlParam := urlParamsForChecking[i];
        assert urlParamsForChecking[..i + 1][..i] == urlParamsForChecking[..i];
        if urlParam.name in requestUrlParams {
          var converted := ConvertParamType(requestUrlParams[urlParam.name], urlParam.type_);
          if converted.Ok? {
            if urlParam.newName != "" {
              result := result[urlParam.newName := converted.value];
            } else {
              result := result[urlParam.name := converted.value];
            }
          }
        }
        i := i + 1;
      }
      assert urlParamsForChecking[..i] == urlParamsForChecking;
    }
  }

  /** The form validator's parameter for a query parameter. */
  function AsParam(p: UrlParam): ParamsHandling.Param
  {
    ParamsHandling.Param(p.name, p.type_, Some(p.newName))
  }

  function AsParams(decl: seq<UrlParam>): (r: seq<ParamsHandling.Param>)
    ensures |r| == |decl| && forall i :: 0 <= i < |decl| ==> r[i] == AsParam(decl[i])
  {
    if |decl| == 0 then [] else AsParams(decl[..|decl| - 1]) + [AsParam(decl[|decl| - 1])]
  }

  /** Handling a query string is the form validator in GET mode: the same
      keys and the same values. */
  lemma {:induction false} UrlHandledIsGetMode(query: map<string, string>, decl: seq<UrlParam>)
    ensures ParamsHandling.Handled(query, AsParams(decl), ParamsHandling.Get) == Ok(UrlHandled(query, decl))
  {
    if |decl| > 0 {
      var prefix := decl[..|decl| - 1];
      assert AsParams(decl)[..|decl| - 1] == AsParams(prefix);
      UrlHandledIsGetMode(query, prefix);
    }
  }

  /** Every key of the result is the target name of a declared parameter
      present in the query, and its value is that parameter converted. */
  lemma UrlHandledKeysAndValues(query: map<string, string>, decl: seq<UrlParam>, k: string)
    requires k in UrlHandled(query, decl)
    ensures exists i :: 0 <= i < |decl| && TargetName(decl[i]) == k && decl[i].name in query &&
                        Convert(query[decl[i].name], decl[i].type_) == Some(UrlHandled(query, decl)[k])
  {
    UrlHandledIsGetMode(query, decl);
    ParamsHandling.HandledKeysAndValues(query, AsParams(decl), ParamsHandling.Get, k);
    var i :| 0 <= i < |AsParams(decl)| && ParamsHandling.TargetName(AsParams(decl)[i]) == k &&
             ParamsHandling.Acceptable(query, AsParams(decl)[i]) &&
             ParamsHandling.Handled(query, AsParams(decl), ParamsHandling.Get).value[k] ==
               Convert(query[AsParams(decl)[i].name], AsParams(decl)[i].type_).value;
    assert AsParams(decl)[i] == AsParam(decl[i]);
  }

  /** A declared parameter that is present and converts is always kept. */
  lemma UrlHandledKeepsAcceptable(query: map<string, string>, decl: seq<UrlParam>, j: int)
    requires 0 <= j < |decl| && decl[j].name in query && Convert(query[decl[j].name], decl[j].type_).Some?
    ensures TargetName(decl[j]) in UrlHandled(query, decl)
  {
    UrlHandledIsGetMode(query, decl);
    assert AsParams(decl)[j] == AsParam(decl[j]);
    ParamsHandling.AcceptableIsKept(query, AsParams(decl), ParamsHandling.Get, j);
  }
}

=== FILE: user_groups.dfy ===
/** The user groups of core/views/auth/user_groups.py.  The source declares
    them as classes under an abstract `UserGroup`: Visitor and User derive
    from it directly, Moderator from User, Admin from Moderator.  A held
    group satisfies a required one when `issubclass(held, required)`. */
module UserGroups {
  import opened Exceptions

  datatype Group = Visitor | User | Moderator | Admin

  /** The direct base class; `None` stands for the abstract `UserGroup`. */
  function Parent(g: Group): Option<Group>
  {
    match g
    case Visitor => None
    case User => None
    case Moderator => Some(User)
    case Admin => Some(Moderator)
  }

  /** Distance from the abstract root, which bounds the walk up the bases. */
  function Depth(g: Group): nat
  {
    match g
    case Visitor => 0
    case User => 0
    case Moderator => 1
    case Admin => 2
  }

  /** `issubclass(held, required)`: `required` is `held` or one of its bases. */
  predicate IsSubclass(held: Group, required: Group)
    decreases Depth(held)
  {
    held == required || (Parent(held).Some? && IsSubclass(Parent(held).value, required))
  }

  /** The groups a logged-in user can hold, in order of privilege. */
  function Rank(g: Group): (r: int)
    requires g != Visitor
    ensures 1 <= r <= 3
  {
    match g
    case User => 1
    case Moderator => 2
    case Admin => 3
  }

  /** The ids the session stores instead of the classes. */
  const VisitorUserGroupId := 1
  const UserUserGroupId := 2
  const ModeratorUserGroupId := 3
  const AdminUserGroupId := 4

  function GroupId(g: Group): int
  {
    match g
    case Visitor => VisitorUserGroupId
    case User => UserUserGroupId
    case Moderator => ModeratorUserGroupId
    case Admin => AdminUserGroupId
  }

  /** `user_groups_mapping`: id to group. */
  const UserGroupsMapping: map<int, Group> :=
    map[VisitorUserGroupId := Visitor, UserUserGroupId := User,
        ModeratorUserGroupId := Moderator, AdminUserGroupId := Admin]

  /** Among logged-in groups, `issubclass` is exactly the order of privilege. */
  lemma {:induction false} SubclassIsRankOrder(held: Group, required: Group)
    requires held != Visitor && required != Visitor
    ensures IsSubclass(held, required) <==> Rank(held) >= Rank(required)
  {
    match held
    case User =>
    case Moderator =>
      assert IsSubclass(User, required) <==> required == User;
    case Admin =>
      assert IsSubclass(User, required) <==> required == User;
      assert IsSubclass(Moderator, required) <==> required == Moderator || required == User;
  }

  /** Visitor is a sibling of User: it satisfies only itself, and nothing
      else satisfies it. */
  lemma {:induction false} VisitorIsolated(g: Group)
    ensures IsSubclass(g, Visitor) <==> g == Visitor
    ensures IsSubclass(Visitor, g) <==> g == Visitor
  {
    match g
    case Visitor =>
    case User =>
    case Moderator =>
      assert !IsSubclass(User, Visitor);
    case Admin =>
      assert !IsSubclass(User, Visitor);
      assert !IsSubclass(Moderator, Visitor);
  }

  /** Every group satisfies itself, and Admin satisfies every logged-in group. */
  lemma {:induction false} AdminSatisfiesAll(g: Group)
    ensures IsSubclass(g, g)
    ensures g != Visitor ==> IsSubclass(Admin, g)
  {
    if g != Visitor {
      SubclassIsRankOrder(Admin, g);
    }
  }

  /** `issubclass` is transitive: a group descending from one that satisfies
      a requirement satisfies it too. */
  lemma {:induction false} SubclassTransitive(a: Group, b: Group, c: Group)
    requires IsSubclass(a, b) && IsSubclass(b, c)
    ensures IsSubclass(a, c)
  {
    VisitorIsolated(a);
    VisitorIsolated(b);
    VisitorIsolated(c);
    if a != Visitor && b != Visitor && c != Visitor {
      SubclassIsRankOrder(a, b);
      SubclassIsRankOrder(b, c);
      SubclassIsRankOrder(a, c);
    }
  }

  /** Two distinct groups never satisfy each other. */
  lemma {:induction false} SubclassAntisymmetric(a: Group, b: Group)
    requires IsSubclass(a, b) && IsSubclass(b, a)
    ensures a == b
  {
    VisitorIsolated(a);
    VisitorIsolated(b);
    if a != Visitor && b != Visitor {
      SubclassIsRankOrder(a, b);
      SubclassIsRankOrder(b, a);
    }
  }

  /** Group ids are distinct and grow with privilege. */
  lemma GroupIdsIncrease(a: Group, b: Group)
    ensures a != b ==> GroupId(a) != GroupId(b)
    ensures a != Visitor && b != Visitor ==> (GroupId(a) < GroupId(b) <==> Rank(a) < Rank(b))
    ensures a != Visitor ==> GroupId(Visitor) < GroupId(a)
  {
  }

  /** `user_groups_mapping` is a bijection between the four ids and the groups. */
  lemma MappingIsBijection(g: Group, id: int)
    ensures UserGroupsMapping.Keys == {1, 2, 3, 4}
    ensures GroupId(g) in UserGroupsMapping && UserGroupsMapping[GroupId(g)] == g
    ensures id in UserGroupsMapping ==> GroupId(UserGroupsMapping[id]) == id
  {
  }
}

=== FILE: view_utils.dfy ===
/** The decorator plumbing of core/views/utils.py: finding the request of a
    function or class-based view, and re-raising a local error as another
    one for the middleware to handle. */
module ViewUtils {
  import opened Exceptions
  import opened CustomErrors
  import opened Middlewares

  /** What a view handler is called with: a request, a class-based view
      holding its request, or an object of some other type whose `type()`
      prints as `typeRepr`. */
  datatype HandlerArgument<Req> = RequestArg(request: Req) | ViewArg(viewRequest: Req) | OtherArg(typeRepr: string)

  function UnexpectedArgumentMessage(typeRepr: string): string
  {
    "Unexpected type of the function (method) argument. " +
    "Expected ( obj: Union[aiohttp.web.Request, aiohttp.web.View] ). " +
    "Given (obj: " + typeRepr + "). " +
    "Decorator must envelop only view functions (or methods if view is class based)."
  }

  /** `view_decorator`: call the inner decorator function with the handler
      argument and the request found in it, or raise ValueError without
      calling it. */
  function ViewDecorator<Req, R>(arg: HandlerArgument<Req>, inner: (HandlerArgument<Req>, Req) -> Result<R>): (r: Result<R>)
    ensures arg.RequestArg? ==> r == inner(arg, arg.request)
    ensures arg.ViewArg? ==> r == inner(arg, arg.viewRequest)
    ensures arg.OtherArg? ==> r == Err(ValueErr(UnexpectedArgumentMessage(arg.typeRepr)))
  {
    match arg
    case RequestArg(request) => inner(arg, request)
    case ViewArg(request) => inner(arg, request)
    case OtherArg(typeRepr) => Err(ValueErr(UnexpectedArgumentMessage(typeRepr)))
  }

  /** A function view and a class-based view over the same request give an
      inner function that only looks at the request the same result; for
      any other argument the inner function is never consulted. */
  lemma ViewDecoratorFindsRequest<Req, R>(request: Req, f: Req -> Result<R>, typeRepr: string,
                                          inner1: (HandlerArgument<Req>, Req) -> Result<R>,
                                          inner2: (HandlerArgument<Req>, Req) -> Result<R>)
    ensures var inner := (_: HandlerArgument<Req>, q: Req) => f(q);
            ViewDecorator(RequestArg(request), inner) == ViewDecorator(ViewArg(request), inner) == f(request)
    ensures ViewDecorator(OtherArg(typeRepr), inner1) == ViewDecorator(OtherArg(typeRepr), inner2)
    ensures IsInstance(ViewDecorator(OtherArg(typeRepr), inner1).error, ValueErrorClass)
  {
  }

  /** `except except_error`: the error is an instance of one of the classes. */
  predicate Caught(e: Exc, exceptError: set<ExcClass>)
  {
    exists c :: c in exceptError && IsInstance(e, c)
  }

  /** `handle_local_error(except_error=…, raise_error=…)` around a function
      with the given outcome: a caught error is raised again as
      `raiseError` (the instance `raise_error()` creates), anything else
      passes through unchanged. */
  function HandleLocalError<R>(exceptError: set<ExcClass>, raiseError: Exc, outcome: Result<R>): (r: Result<R>)
    ensures outcome.Ok? ==> r == outcome
    ensures outcome.Err? && Caught(outcome.error, exceptError) ==> r == Err(raiseError)
    ensures outcome.Err? && !Caught(outcome.error, exceptError) ==> r == outcome
  {
    if outcome.Err? && Caught(outcome.error, exceptError) then Err(raiseError) else outcome
  }

  /** Errors never pass silently: the wrapper fails exactly when the
      function fails, and wrapping twice is wrapping once. */
  lemma HandleLocalErrorProperties<R>(exceptError: set<ExcClass>, raiseError: Exc, outcome: Result<R>)
    ensures HandleLocalError(exceptError, raiseError, outcome).Err? <==> outcome.Err?
    ensures HandleLocalError(exceptError, raiseError, HandleLocalError(exceptError, raiseError, outcome)) ==
            HandleLocalError(exceptError, raiseError, outcome)
  {
  }

  /** A local error re-raised as an HTTP error with an error page is served
      that page by the error middleware. */
  lemma LocalErrorReachesErrorPage<R>(exceptError: set<ExcClass>, status: int, reason: string,
                                      outcome: Result<R>, render: ErrorPage -> R)
    requires status in Errors && outcome.Err? && Caught(outcome.error, exceptError)
    ensures ErrorMiddleware(map s | s in Errors :: render(Errors[s]), HandleLocalError(exceptError, Http(status, reason), outcome))
            == Ok(render(Errors[status]))
  {
  }
}
